=== FILE: README.md ===
# Hospital ticket administration: the client-side rules

This project models the client-side view logic of four admin pages of the
hospital's ticket web client. They are the ticket review page
(`ticket-revisar`), the unreviewed and reviewed ticket lists
(`tickets-sin-revisar` and `tickets-revisados`) and the locations and areas
page (`ubicaciones`). The project also proves properties of that logic.

Every handler is a pure function. It takes the page's view state, plus the
server's reply for a response callback, and returns a `Step`: the new state,
the notifications (toasts) shown, the requests issued and the route navigated
to. A reply is `Ok(data)`, `Rejected(message)` for an envelope with
`success: false`, or `TransportError`. This makes guards such as "no request
is issued unless the classification is saved" statements about the `requests`
field.

Modules:

- `JsValues` (js_values.dfy): `Option` and JavaScript truthiness (`!x`, `x || y`).
- `Effects` (effects.dfy): toasts, the request kinds of the ticket and type services, replies and steps.
- `Text` (text.dfy): the string primitives the pages rely on, defined from scratch:
  - `toLowerCase` and `toUpperCase`;
  - `trim`, over the exact JavaScript white-space set;
  - `includes`;
  - `Number.prototype.toString` for ids;
  - `Number()` of a select value.
- `Seqs` (seqs.dfy): `Array.filter` and `Array.slice` with their properties.
- `TicketReview` (ticket_review.dfy): the review page.
  - Label-to-id maps, the lock rule, and the three guarded actions with their reply handlers.
  - The whole page as a state machine over events. The events are the user's clicks, the unit and priority choices in the form's selects, and the server's replies. An invariant is proved for every feasible run, and the main flow (open, choose, save, assign) is shown to be feasible.
- `UnreviewedTickets` (unreviewed_tickets.dfy): filtering, pagination and the seven-slot page strip.
- `ReviewedTickets` (reviewed_tickets.dfy): the stable sort by creation time, filtering, the kanban columns, user unwrapping, role routing and the unit title.
- `Locations` (locations.dfy): the form guards, the choice between create and update, the reload after a save, and the two search filters.

## Model

| member | source | states |
|---|---|---|
| Text.Lower | src/app/features/admin/pages/ticket-revisar/ticket-revisar.ts:105-107 | lowercasing maps each character through the ASCII and Latin-1 simple case mapping and keeps the length |
| Text.LowerIsLowerText | src/app/features/admin/pages/ticket-revisar/ticket-revisar.ts:105-107 | a lowercased string contains no upper-case letter |
| Text.LowerIdempotent | src/app/features/admin/pages/ticket-revisar/ticket-revisar.ts:105-107 | lowercasing twice is the same as lowercasing once |
| Text.LowerAppend | src/app/features/admin/pages/ubicaciones/ubicaciones.ts:128 | lowercasing distributes over concatenation |
| Text.UpperText | src/app/features/admin/pages/ticket-revisar/ticket-revisar.ts:266 | `toUpperCase` of one character: a small letter becomes the one capital that lowercases back to it; ß becomes SS, ÿ becomes Ÿ and µ becomes Μ; any other character is unchanged |
| Text.UpperTextOfLower | src/app/features/admin/pages/ticket-revisar/ticket-revisar.ts:266 | upper-casing a character gives the same text as upper-casing its lowercase form |
| Text.UpperTextOfLetter | src/app/features/admin/pages/ticket-revisar/ticket-revisar.ts:266 | capitalising a letter gives one capital letter whose lowercase is the original letter's lowercase |
| Text.Capitalize | src/app/shared/pages/tickets-revisados/tickets-revisados.ts:161 | the first character is replaced by its upper-case text and the rest of the string is kept unchanged |
| Text.CapitalizeLowersBack | src/app/shared/pages/tickets-revisados/tickets-revisados.ts:161 | for a text starting with a letter, capitalising keeps the length and lowercases back to the lowercased original |
| Text.Trim | src/app/features/admin/pages/tickets-sin-revisar/tickets-sin-revisar.ts:97 | the result is the input with leading and trailing JS white space removed, and it neither starts nor ends with white space |
| Text.TrimEmptyIff | src/app/features/admin/pages/tickets-sin-revisar/tickets-sin-revisar.ts:97-101 | trimming gives the empty string exactly when the input is all white space |
| Text.IncludesIff | src/app/features/admin/pages/tickets-sin-revisar/tickets-sin-revisar.ts:102-104 | `includes` holds exactly when the needle occurs at some index of the haystack |
| Text.IncludesEmpty | src/app/features/admin/pages/ubicaciones/ubicaciones.ts:127-133 | every string includes the empty string |
| Text.IncludesPrefix | src/app/features/admin/pages/ubicaciones/ubicaciones.ts:127-133 | a haystack that includes `a + b` also includes `a` |
| Text.Decimal | src/app/features/admin/pages/tickets-sin-revisar/tickets-sin-revisar.ts:104 | `toString` of a ticket id: a non-empty digit string with no leading zero |
| Text.ParseDecimalRoundTrip | src/app/features/admin/pages/tickets-sin-revisar/tickets-sin-revisar.ts:104 | reading back a printed id gives the id |
| Text.DecimalInjective | src/app/features/admin/pages/tickets-sin-revisar/tickets-sin-revisar.ts:104 | distinct ids print differently |
| Text.ToNumber | src/app/features/admin/pages/ubicaciones/ubicaciones.ts:72 | `Number()` of a select value: blank text is 0, trimmed digits are their decimal value, and anything else is NaN |
| Text.ToNumberOfDecimal | src/app/features/admin/pages/ubicaciones/ubicaciones.ts:72 | `Number()` of a printed id is that id |
| Seqs.Filter | src/app/features/admin/pages/tickets-sin-revisar/tickets-sin-revisar.ts:99-125 | `Array.filter`: it keeps exactly the elements that satisfy the predicate |
| Seqs.FilterIsSubseq | src/app/features/admin/pages/tickets-sin-revisar/tickets-sin-revisar.ts:99-125 | the filtered list is an order-preserving subsequence of the input |
| Seqs.FilterCounts | src/app/features/admin/pages/tickets-sin-revisar/tickets-sin-revisar.ts:99-125 | each kept element occurs as often as in the input, and each dropped one not at all |
| Seqs.FilterKeepsAll | src/app/features/admin/pages/tickets-sin-revisar/tickets-sin-revisar.ts:99-125 | a predicate that every element satisfies keeps the list unchanged |
| Seqs.Slice | src/app/features/admin/pages/tickets-sin-revisar/tickets-sin-revisar.ts:133 | `Array.slice` with clamped bounds: its length and its elements, which are those of the input from `start` on |
| Seqs.SliceIsRange | src/app/features/admin/pages/tickets-sin-revisar/tickets-sin-revisar.ts:133 | for non-negative bounds a slice is the clamped range of the sequence |
| TicketReview.UnitId | src/app/features/admin/pages/ticket-revisar/ticket-revisar.ts:100-109 | 'soporte técnico', 'infraestructura' and 'desarrollo' map to 1, 2 and 3 after lowercasing; any other or missing label maps to null |
| TicketReview.PriorityId | src/app/features/admin/pages/ticket-revisar/ticket-revisar.ts:101-110 | 'baja', 'media' and 'alta' map to 1, 2 and 3 after lowercasing; any other label maps to null |
| TicketReview.StatusId | src/app/features/admin/pages/ticket-revisar/ticket-revisar.ts:103-111 | 'abierto', 'en proceso', 'resuelto' and 'cerrado' map to 1 to 4 after lowercasing; any other label maps to null |
| TicketReview.LookupIgnoresCase | src/app/features/admin/pages/ticket-revisar/ticket-revisar.ts:105-111 | a label and its lowercase form map to the same id |
| TicketReview.MissingLabelHasNoId | src/app/features/admin/pages/ticket-revisar/ticket-revisar.ts:105-111 | a missing or empty label maps to null in all three maps |
| TicketReview.StartLoad | src/app/features/admin/pages/ticket-revisar/ticket-revisar.ts:74-77 | loading raises the loading flag and requests exactly that ticket |
| TicketReview.Init | src/app/features/admin/pages/ticket-revisar/ticket-revisar.ts:51-61 | a falsy route id (0 or NaN) issues nothing and routes back to the unreviewed list; otherwise the ticket and the agent list are requested |
| TicketReview.OnTicketReply | src/app/features/admin/pages/ticket-revisar/ticket-revisar.ts:78-126 | a rejected, empty or failed load changes nothing but the loading flag; a loaded ticket sets the three ids from its labels, and the flag is saved iff the status is 'en proceso' or both unit and priority ids exist |
| TicketReview.OnAgentsReply | src/app/features/admin/pages/ticket-revisar/ticket-revisar.ts:132-138 | only an accepted reply replaces the agent list, using [] for missing data |
| TicketReview.Assign | src/app/features/admin/pages/ticket-revisar/ticket-revisar.ts:143-155 | a request is issued iff a ticket is loaded and its classification is saved; without a saved classification the only effect is the warning |
| TicketReview.OnAssignReply | src/app/features/admin/pages/ticket-revisar/ticket-revisar.ts:156-170 | success reloads the same ticket id; a rejection or a transport error leaves the state unchanged and issues nothing |
| TicketReview.SaveClassification | src/app/features/admin/pages/ticket-revisar/ticket-revisar.ts:177-199 | a request is issued iff a ticket is loaded and both unit and priority are set; the unit warning comes first; the payload carries exactly the current three ids |
| TicketReview.OnSaveReply | src/app/features/admin/pages/ticket-revisar/ticket-revisar.ts:200-215 | success sets the saved flag; a failure keeps it as it was; saving ends either way |
| TicketReview.CompleteReview | src/app/features/admin/pages/ticket-revisar/ticket-revisar.ts:221-241 | a request is issued iff a ticket is loaded and its classification is saved; a missing agent only adds a warning |
| TicketReview.OnReviewReply | src/app/features/admin/pages/ticket-revisar/ticket-revisar.ts:241-259 | the page navigates to the reviewed list iff the reply is a success |
| TicketReview.RejectedReviewStays | src/app/features/admin/pages/ticket-revisar/ticket-revisar.ts:241-253 | a review rejected with the message 'Clasificación incompleta' shows that message as an error and does not navigate |
| TicketReview.AgentInitial | src/app/features/admin/pages/ticket-revisar/ticket-revisar.ts:265-267 | the upper-case text of the first character of the agent's name, or '?' when there is no name |
| TicketReview.AgentInitialNamesFirstLetter | src/app/features/admin/pages/ticket-revisar/ticket-revisar.ts:265-267 | for a name starting with a letter, the initial is one capital letter that lowercases to the name's first letter lowercased |
| TicketReview.AgentInitialIgnoresCase | src/app/features/admin/pages/ticket-revisar/ticket-revisar.ts:265-267 | the initial does not depend on the case of the stored name |
| TicketReview.NextKeepsConsistent | src/app/features/admin/pages/ticket-revisar/ticket-revisar.ts:36-216 | every event keeps the page's invariant, including a unit or priority chosen in the form's selects: a saved flag and any issued save imply a loaded ticket, and the ids stay within the enumerations |
| TicketReview.RunKeepsConsistent | src/app/features/admin/pages/ticket-revisar/ticket-revisar.ts:36-260 | the invariant holds after any feasible sequence of loads, selections, clicks and replies |
| TicketReview.ReachableSavePayload | src/app/features/admin/pages/ticket-revisar/ticket-revisar.ts:182-197 | from page open on, every classification request carries unit and priority in 1..3 and status in 1..4 or null, whether the ids came from the labels or from the selects |
| TicketReview.ReachableSavedHasTicket | src/app/features/admin/pages/ticket-revisar/ticket-revisar.ts:119-206 | in every reachable state, selections included, a saved classification belongs to a loaded ticket |
| TicketReview.SavedOnlyByServer | src/app/features/admin/pages/ticket-revisar/ticket-revisar.ts:119-206 | the saved flag is only raised by a loaded ticket or by an accepted save |
| TicketReview.SaveUnlocksAssignAndReview | src/app/features/admin/pages/ticket-revisar/ticket-revisar.ts:148-241 | after an accepted save of a complete classification, both assign and complete review issue their request |
| TicketReview.InProcessTicketLoadsLocked | src/app/features/admin/pages/ticket-revisar/ticket-revisar.ts:100-123 | a ticket labelled Infraestructura, ALTA and En Proceso loads with unit 2, priority 3 and status 2, read-only |
| TicketReview.OpenUnclassifiedTicketBlocksActions | src/app/features/admin/pages/ticket-revisar/ticket-revisar.ts:119-229 | an open ticket with no unit and no priority loads editable, and assign, save and review issue nothing |
| TicketReview.RunAppend | src/app/features/admin/pages/ticket-revisar/ticket-revisar.ts:51-260 | handling two event sequences one after the other is handling their concatenation, feasible exactly when both parts are |
| TicketReview.OpenEventsRun | src/app/features/admin/pages/ticket-revisar/ticket-revisar.ts:51-123 | opening the page on an open ticket with no unit and no priority loads it editable, with status 1 |
| TicketReview.ClassifyEventsRun | src/app/features/admin/pages/ticket-revisar/ticket-revisar.ts:36-199 | choosing unit 2 and priority 3 and clicking save sends exactly those ids with the ticket's status |
| TicketReview.AssignEventsRun | src/app/features/admin/pages/ticket-revisar/ticket-revisar.ts:143-206 | an accepted save locks the classification, after which assigning sends the request for the same ticket |
| TicketReview.ClassifyThenAssignRuns | src/app/features/admin/pages/ticket-revisar/ticket-revisar.ts:51-206 | the page's main flow is possible: open, choose, save, accepted, assign; it issues the ticket and agent fetches, the update and the assignment, in that order |
| UnreviewedTickets.StartLoad | src/app/features/admin/pages/tickets-sin-revisar/tickets-sin-revisar.ts:62-66 | loading raises the flag, clears the error and requests the unreviewed list |
| UnreviewedTickets.OnLoadReply | src/app/features/admin/pages/tickets-sin-revisar/tickets-sin-revisar.ts:67-81 | success stores `tickets`, else `tickets_sin_revisar`, else [], and sets the count; a failure leaves the list and sets a non-empty error |
| UnreviewedTickets.FilteredTickets | src/app/features/admin/pages/tickets-sin-revisar/tickets-sin-revisar.ts:96-126 | an order-preserving subsequence that keeps exactly the tickets that pass search, origin, event, from and to, each as often as in the input |
| UnreviewedTickets.DefaultFiltersKeepAll | src/app/features/admin/pages/tickets-sin-revisar/tickets-sin-revisar.ts:100-124 | the default filters keep every ticket |
| UnreviewedTickets.DefaultMatches | src/app/features/admin/pages/tickets-sin-revisar/tickets-sin-revisar.ts:100-124 | every ticket passes the default search, origin, event and date filters |
| UnreviewedTickets.ResetFilters | src/app/features/admin/pages/tickets-sin-revisar/tickets-sin-revisar.ts:136-150 | the filters become the defaults ('' search, 'todos' origin and event, no dates) and the page goes back to 1, with the list, page size, count, loading flag and error kept; the filtered list is then the whole list |
| UnreviewedTickets.SetFilters | src/app/features/admin/pages/tickets-sin-revisar/tickets-sin-revisar.ts:87-91 | a filter setter stores the new filter and changes nothing else: the current page, list, page size, recorded count, loading flag and error are all kept |
| UnreviewedTickets.SetFiltersKeepsPaging | src/app/features/admin/pages/tickets-sin-revisar/tickets-sin-revisar.ts:87-91 | until the list is paginated again, a filter change leaves the page count and where the previous and next buttons go unchanged, because `totalPages` reads the recorded count |
| UnreviewedTickets.FilterChangeCanEmptyPage | src/app/features/admin/pages/tickets-sin-revisar/tickets-sin-revisar.ts:87-91 | with three tickets on page 3 at one per page, a from-date that keeps one ticket leaves page 3 empty |
| UnreviewedTickets.SetFiltersFromFirstPage | src/app/features/admin/pages/tickets-sin-revisar/tickets-sin-revisar.ts:87-91 | a filter change that returns to page 1 and changes nothing else shows a non-empty page whenever any ticket matches |
| UnreviewedTickets.BlankSearchMatchesAll | src/app/features/admin/pages/tickets-sin-revisar/tickets-sin-revisar.ts:97-101 | a search made only of white space matches every ticket |
| UnreviewedTickets.SearchById | src/app/features/admin/pages/tickets-sin-revisar/tickets-sin-revisar.ts:97-104 | searching for a ticket's printed id matches that ticket |
| UnreviewedTickets.TotalPages | src/app/features/admin/pages/tickets-sin-revisar/tickets-sin-revisar.ts:160-162 | the page count is the ceiling of count / size, or 1 when there are no tickets |
| UnreviewedTickets.Page | src/app/features/admin/pages/tickets-sin-revisar/tickets-sin-revisar.ts:132-133 | a page holds at most `size` tickets: the ones from index (page - 1) * size on |
| UnreviewedTickets.Paginate | src/app/features/admin/pages/tickets-sin-revisar/tickets-sin-revisar.ts:128-134 | the current page is that slice of the filtered list, and the view records the filtered count |
| UnreviewedTickets.LoadResetShowsFirstTickets | src/app/features/admin/pages/tickets-sin-revisar/tickets-sin-revisar.ts:69-150 | after a load delivers a list and the filters are reset, the first page shows the first tickets of that list, as many as fit |
| UnreviewedTickets.ResetThenLoadShowsAll | src/app/features/admin/pages/tickets-sin-revisar/tickets-sin-revisar.ts:67-81 | the reset filters outlive the next load: whatever list then arrives is shown whole |
| UnreviewedTickets.PageNotEmpty | src/app/features/admin/pages/tickets-sin-revisar/tickets-sin-revisar.ts:132-162 | a page within range of a non-empty list is not empty |
| UnreviewedTickets.PagesUpToPrefix | src/app/features/admin/pages/tickets-sin-revisar/tickets-sin-revisar.ts:132-133 | pages 1..n laid end to end are the prefix of the filtered list that ends where page n + 1 starts |
| UnreviewedTickets.PagesCoverFiltered | src/app/features/admin/pages/tickets-sin-revisar/tickets-sin-revisar.ts:132-162 | pages 1..totalPages together show every filtered ticket once, in order |
| UnreviewedTickets.PreviousPage | src/app/features/admin/pages/tickets-sin-revisar/tickets-sin-revisar.ts:164 | goes back one page unless on page 1, and keeps the page within range |
| UnreviewedTickets.NextPage | src/app/features/admin/pages/tickets-sin-revisar/tickets-sin-revisar.ts:165 | goes forward one page unless on the last, and keeps the page within range |
| UnreviewedTickets.NextThenPrevious | src/app/features/admin/pages/tickets-sin-revisar/tickets-sin-revisar.ts:164-165 | next page followed by previous page returns to the same view |
| UnreviewedTickets.PreviousThenNext | src/app/features/admin/pages/tickets-sin-revisar/tickets-sin-revisar.ts:164-165 | previous page followed by next page returns to the same view |
| UnreviewedTickets.GoToPage | src/app/features/admin/pages/tickets-sin-revisar/tickets-sin-revisar.ts:167-171 | moves to any page within range; -1 and pages out of range change nothing |
| UnreviewedTickets.PageStrip | src/app/features/admin/pages/tickets-sin-revisar/tickets-sin-revisar.ts:173-187 | [1..total] when total <= 7; otherwise seven slots from 1 to total; its pages increase, and -1 appears only between non-adjacent pages |
| UnreviewedTickets.StripShowsCurrent | src/app/features/admin/pages/tickets-sin-revisar/tickets-sin-revisar.ts:173-187 | the strip always shows the current page when that page is within range |
| UnreviewedTickets.SevenSlotsWellFormed | src/app/features/admin/pages/tickets-sin-revisar/tickets-sin-revisar.ts:180-186 | each seven-slot layout is well formed |
| UnreviewedTickets.StripSlotsNavigate | src/app/features/admin/pages/tickets-sin-revisar/tickets-sin-revisar.ts:167-187 | clicking a page slot moves to that page, and clicking the ellipsis does nothing |
| UnreviewedTickets.ChangePageSize | src/app/features/admin/pages/tickets-sin-revisar/tickets-sin-revisar.ts:189-192 | stores the new size and goes back to page 1, which is always within range |
| UnreviewedTickets.ViewDetail | src/app/features/admin/pages/tickets-sin-revisar/tickets-sin-revisar.ts:194-196 | routes to the review page of that ticket id |
| ReviewedTickets.InsertByTime | src/app/shared/pages/tickets-revisados/tickets-revisados.ts:81 | inserting into a sorted list keeps it sorted and adds exactly that ticket |
| ReviewedTickets.SortByTime | src/app/shared/pages/tickets-revisados/tickets-revisados.ts:80-81 | the result is sorted oldest first and is a permutation of the input |
| ReviewedTickets.InsertKeepsTies | src/app/shared/pages/tickets-revisados/tickets-revisados.ts:81 | insertion puts a ticket before those with the same time and leaves their order unchanged |
| ReviewedTickets.SortKeepsTies | src/app/shared/pages/tickets-revisados/tickets-revisados.ts:81 | the sort is stable: tickets with equal times keep their relative order |
| ReviewedTickets.StartLoad | src/app/shared/pages/tickets-revisados/tickets-revisados.ts:69-73 | loading raises the flag, clears the error and requests the reviewed list |
| ReviewedTickets.OnLoadReply | src/app/shared/pages/tickets-revisados/tickets-revisados.ts:74-91 | success stores the received list sorted by time as a permutation of it; a failure sets a non-empty error |
| ReviewedTickets.FilteredTickets | src/app/shared/pages/tickets-revisados/tickets-revisados.ts:117-145 | an order-preserving subsequence that keeps exactly the tickets that pass search, priority, status, from and to |
| ReviewedTickets.DefaultFiltersKeepAll | src/app/shared/pages/tickets-revisados/tickets-revisados.ts:120-144 | the default filters keep every ticket |
| ReviewedTickets.ResetFilters | src/app/shared/pages/tickets-revisados/tickets-revisados.ts:164-170 | the filters become the defaults ('' search, 'todos' priority and status, no dates), with the list, user, loading flag and error kept; the filtered list is then the whole list |
| ReviewedTickets.ResetThenLoadShowsAll | src/app/shared/pages/tickets-revisados/tickets-revisados.ts:74-91 | after a reset, every ticket of the next successful load is shown, as often as it arrived |
| ReviewedTickets.TicketsByPriority | src/app/shared/pages/tickets-revisados/tickets-revisados.ts:150-153 | exactly the filtered tickets whose lowercased priority equals the lowercased column, in order and each as often as in the filtered list |
| ReviewedTickets.ColumnsDisjoint | src/app/shared/pages/tickets-revisados/tickets-revisados.ts:150-153 | no ticket appears in two columns whose names differ after lowercasing |
| ReviewedTickets.OtherColumnsEmptyUnderPriorityFilter | src/app/shared/pages/tickets-revisados/tickets-revisados.ts:129-153 | with a priority filter set, every other column is empty |
| ReviewedTickets.LoadUser | src/app/shared/pages/tickets-revisados/tickets-revisados.ts:48-57 | yields `raw.data.user` whenever that path exists, otherwise the raw user itself |
| ReviewedTickets.LoadUserUnnests | src/app/shared/pages/tickets-revisados/tickets-revisados.ts:52-53 | a user wrapped as `{ data: { user } }` unwraps to that user |
| ReviewedTickets.ViewDetail | src/app/shared/pages/tickets-revisados/tickets-revisados.ts:94-112 | reloads a missing user; no route without a user or role; role 'administrador' goes to /admin/ticket/id, any other role to /soporte/ticket/id |
| ReviewedTickets.UnitSource | src/app/shared/pages/tickets-revisados/tickets-revisados.ts:160 | `nombre_unidad`, then `unidad`, then 'Unidad Central'; never empty |
| ReviewedTickets.UnitTitle | src/app/shared/pages/tickets-revisados/tickets-revisados.ts:155-162 | 'Cargando...' without a user; otherwise the unit name capitalised: its first character upper-cased and the rest unchanged |
| ReviewedTickets.UnitTitleKeepsName | src/app/shared/pages/tickets-revisados/tickets-revisados.ts:155-162 | for a unit name starting with a letter, the title has the same length and lowercases to the lowercased name |
| ReviewedTickets.UnitTitleWithoutUnit | src/app/shared/pages/tickets-revisados/tickets-revisados.ts:155-162 | a user with no unit at all is shown under 'Unidad Central' |
| ReviewedTickets.NestedUserRoutesByOwnRole | src/app/shared/pages/tickets-revisados/tickets-revisados.ts:94-112 | a user stored as `{ data: { user } }` is unwrapped, routed by its own role, and the route ends with the ticket id, which reads back as that id |
| ReviewedTickets.NestedUserWithoutRoleStays | src/app/shared/pages/tickets-revisados/tickets-revisados.ts:96-104 | a nested user without a role leads to no navigation |
| Locations.Reload | src/app/features/admin/pages/ubicaciones/ubicaciones.ts:40-42 | reloading raises the loading flag and requests the areas first |
| Locations.OnAreasReply | src/app/features/admin/pages/ubicaciones/ubicaciones.ts:42-59 | any envelope goes on to request the locations, and only an accepted one replaces the areas; a transport error stops loading |
| Locations.OnLocationsReply | src/app/features/admin/pages/ubicaciones/ubicaciones.ts:46-53 | only an accepted reply replaces the locations; loading ends either way |
| Locations.ReloadSettles | src/app/features/admin/pages/ubicaciones/ubicaciones.ts:40-60 | whatever the two fetches answer, a reload issues at most the locations fetch and ends with loading lowered |
| Locations.SaveLocation | src/app/features/admin/pages/ubicaciones/ubicaciones.ts:65-79 | no request iff the name or the area id is empty; otherwise an update when the modal has an id, else a create, carrying `Number(areaId)` |
| Locations.SaveArea | src/app/features/admin/pages/ubicaciones/ubicaciones.ts:96-110 | no request iff the name is empty; otherwise an update when the modal has an id, else a create |
| Locations.OnLocationSaved | src/app/features/admin/pages/ubicaciones/ubicaciones.ts:80-90 | success closes the modal and reloads; a failure keeps the state, modal included |
| Locations.OnAreaSaved | src/app/features/admin/pages/ubicaciones/ubicaciones.ts:111-121 | success closes the modal and reloads; a failure keeps the state, modal included |
| Locations.SaveLocationSendsAreaId | src/app/features/admin/pages/ubicaciones/ubicaciones.ts:72 | an area select holding a printed id sends that id |
| Locations.FilteredLocations | src/app/features/admin/pages/ubicaciones/ubicaciones.ts:127-133 | keeps, in order, exactly the locations whose name or area name includes the lowercased search |
| Locations.FilteredAreas | src/app/features/admin/pages/ubicaciones/ubicaciones.ts:135-140 | keeps, in order, exactly the areas whose name includes the lowercased search |
| Locations.EmptySearchKeepsAll | src/app/features/admin/pages/ubicaciones/ubicaciones.ts:127-140 | an empty search keeps every location and area |
| Locations.LongerSearchNarrows | src/app/features/admin/pages/ubicaciones/ubicaciones.ts:127-140 | typing more characters only removes entries from both lists |
| Locations.SearchIgnoresCase | src/app/features/admin/pages/ubicaciones/ubicaciones.ts:127-140 | the search gives the same lists whatever its case |

## Left out

- The HTTP services (`ticket.service.ts`, `tipo.service.ts`) are one-line wrappers. Only the request kind and its payload are modelled, as `ApiRequest`. `ticket.service.ts` and `tipo.service.ts` are not part of this model, and neither is `main.ts`, which only does bootstrap and dependency configuration.
- The server is an input, not a model. Whether a reload after an assignment shows the new agent, and whether an assignment or review is idempotent, depend on the server and are not stated.
- Timing:
  - the 900 ms delay before navigating is modelled as an immediate route;
  - the clock `setInterval` is left out;
  - `toastr.clear` of the progress toast is left out. The progress toast appears in `toasts`, but its removal does not.
- Toast titles and options, and `console.log`/`console.error`, are not modelled.
- Dates are abstract integer timestamps, so JavaScript `Date` parsing is not modelled. The "to" bound is taken to be already at the end of its day, which is what the `T23:59:59` suffix does.
- `Text.Lower`: lowercasing covers ASCII and Latin-1 only. Full Unicode case mapping and its locale rules are not modelled.
- `Text.UpperText` covers the same characters. Its special cases are ß, ÿ and µ.
- `Text.ToNumber`: `Number()` is modelled only for blank strings and plain decimal digits after trimming. Signs, fractions, exponents, hex and `Infinity` count as NaN, and NaN is represented by `None`.
- Characters are code points, not UTF-16 code units, so `charAt(0)` of a name that starts with an astral character is not modelled.
- `UnreviewedTickets.ChangePageSize`: the page size is assumed to be a positive number. The page-size select is in the page template, which is not part of this model. A value whose `Number()` is 0, negative or NaN is not modelled, and neither is the way `Math.ceil` and the `|| 1` fallback in `totalPages` would then behave.
- `Locations.SaveLocation` and `Locations.SaveArea` require the matching modal to be open whenever the form is filled in. The source reads the modal's id without a null check, so it throws a TypeError otherwise. That throw is not modelled.
- `OnLocationSaved` and `OnAreaSaved` take `editing` as a parameter. This is the value captured when the request was sent.
- `TicketReview.OnTicketReply` takes a loaded wrapper that always holds a ticket. A `data.ticket` wrapper without its inner `ticket` makes the source store undefined and then throw when it reads the unit label; that throw is not modelled.
- The review page's selects are not modelled as disabled while the classification is locked. The page template is not part of this model, so a selection event is possible in any state, and the stated invariants hold in every state.
- The label maps are finite maps. The JavaScript prototype lookup, under which a key such as `constructor` finds an inherited member, is not modelled.
- Not modelled:
  - the two-way form bindings themselves, because the page template is not part of this model; a filter change is `SetFilters` with a new `Filters` value, and a select choice on the review page is an event;
  - `trackByTicketId`;
  - the `activeTab` signal;
  - `clasificacionGuardada`, which only reads the flag;
  - `volver`, which is the `BackRoute` navigation in `TicketReview.Init`.
- Ticket fields that the list pages lowercase without a null check are typed as always present: the subject and user name on the unreviewed list, and the subject, priority and status on the reviewed list. A ticket missing one of them makes the source throw a TypeError once a search, a selected filter or a priority column reads that field (`tickets-sin-revisar.ts` lines 102-103, `tickets-revisados.ts` lines 124, 131, 136 and 152); that throw is not modelled.
- Duplicate requests from a rapid double click are not excluded. The model lets every click issue its request, as the source does.

## Findings

| source | as written | input that shows it | evidently intended | confidence | as-written member | corrected member |
|---|---|---|---|---|---|---|
| src/app/features/admin/pages/tickets-sin-revisar/tickets-sin-revisar.ts:87-91 | the filter setters keep `currentPage` | three tickets one per page on page 3; a from-date that keeps only the third ticket; page 3 of the single filtered page is empty | a filter change returns to page 1, as `resetFiltros` does | medium, not executed | UnreviewedTickets.FilterChangeCanEmptyPage | UnreviewedTickets.SetFiltersFromFirstPage |

=== FILE: effects.dfy ===
/** What a view-model handler does besides changing its own state: the
    notifications it shows, the HTTP requests it issues and the route it
    navigates to. Server replies come back in the shape the services return. */
module Effects {
  import opened JsValues

  datatype Level = Success | Info | Warning | Error

  /** A toast notification. */
  datatype Toast = Toast(level: Level, text: string)

  /** One request to the remote API. Only its kind and payload are modelled;
      the URL, the credentials flag and the transport are not. */
  datatype ApiRequest =
    | GetTicket(ticketId: int)
    | ListAgents
    | UpdateTicket(ticketId: int, unitId: int, priorityId: int, statusId: Option<int>)
    | AssignAgent(ticketId: int, agentId: int)
    | MarkReviewed(ticketId: int)
    | ListUnreviewed
    | ListReviewed
    | ListAreas
    | ListLocations
    | CreateLocation(name: string, areaId: Option<int>)
    | UpdateLocation(id: int, name: string, areaId: Option<int>)
    | CreateArea(name: string)
    | UpdateArea(id: int, name: string)

  /** The outcome of a request as a subscriber sees it: the `{success, data,
      message}` envelope with `success` true, the same with `success` false
      (a missing message is ""), or the observable's error callback. */
  datatype Reply<+T> = Ok(data: T) | Rejected(message: string) | TransportError

  /** The result of one handler: the new view state and its side effects. */
  datatype Step<S> = Step(state: S, toasts: seq<Toast>, requests: seq<ApiRequest>, route: Option<string>)

  /** A handler outcome with no side effect at all. */
  function Quiet<S>(s: S): Step<S> {
    Step(s, [], [], None)
  }
}

=== FILE: js_values.dfy ===
/** JavaScript value conventions shared by the view models: fields that may be
    null or undefined, and the truthiness tests (`!x`, `x || y`) the handlers use. */
module JsValues {

  /** A value that may be null or undefined on the wire. */
  datatype Option<+T> = None | Some(value: T) {

    /** `x ?? fallback` and `x || fallback` for values that are never falsy
        when present (arrays and objects). */
    function GetOr(fallback: T): T {
      match this
      case Some(v) => v
      case None => fallback
    }
  }

  /** `!!s` for a string that may be missing: present and not empty. */
  predicate Truthy(s: Option<string>) {
    s.Some? && s.value != ""
  }

  /** `!!n` for a numeric id that may be missing: present and not zero. */
  predicate TruthyId(n: Option<int>) {
    n.Some? && n.value != 0
  }

  /** `s || fallback` for a string. */
  function Or(s: string, fallback: string): string {
    if s != "" then s else fallback
  }

  /** `s || fallback` for a string that may be missing. */
  function OptOr(s: Option<string>, fallback: string): string {
    if Truthy(s) then s.value else fallback
  }
}

=== FILE: locations.dfy ===
/** The admin page for reference data: locations (each in an area) and
    areas. It validates the modal forms, chooses between create and update,
    reloads after a save, and filters both lists by one search box. */
module Locations {
  import opened JsValues
  import opened Text
  import opened Seqs
  import opened Effects

  datatype Location = Location(id: int, name: string, areaName: Option<string>)
  datatype Area = Area(id: int, name: string)

  /** The record open in a modal: `id` is present when editing an existing one. */
  datatype Modal = Modal(id: Option<int>)

  datatype View = View(
    locations: seq<Location>,
    areas: seq<Area>,
    loading: bool,
    locationModal: Option<Modal>,
    areaModal: Option<Modal>,
    search: string)

  // ---------------------------------------------------------------------
  // Loading both lists
  // ---------------------------------------------------------------------

  /** `cargarDatos`: raise the loading flag and fetch the areas first. */
  function Reload(v: View): (r: Step<View>)
    ensures r.state == v.(loading := true) && r.requests == [ListAreas]
  {
    Step(v.(loading := true), [], [ListAreas], None)
  }

  /** The callbacks of the areas fetch: any envelope, accepted or not, goes
      on to fetch the locations; only a transport error stops loading. */
  function OnAreasReply(v: View, reply: Reply<Option<seq<Area>>>): (r: Step<View>)
    ensures r.route == None
    ensures r.requests == [ListLocations] <==> !reply.TransportError?
    ensures reply.Ok? ==> r.state == v.(areas := reply.data.GetOr([]))
    ensures reply.Rejected? ==> r.state == v
    ensures reply.TransportError? ==> r.state == v.(loading := false) && r.requests == []
  {
    match reply
    case Ok(data) => Step(v.(areas := data.GetOr([])), [], [ListLocations], None)
    case Rejected(_) => Step(v, [], [ListLocations], None)
    case TransportError => Step(v.(loading := false), [Toast(Error, "Error cargando áreas")], [], None)
  }

  /** The callbacks of the locations fetch, followed by `finalize`. */
  function OnLocationsReply(v: View, reply: Reply<Option<seq<Location>>>): (r: Step<View>)
    ensures r.route == None && r.requests == [] && !r.state.loading
    ensures reply.Ok? ==> r.state == v.(locations := reply.data.GetOr([]), loading := false)
    ensures !reply.Ok? ==> r.state == v.(loading := false)
  {
    match reply
    case Ok(data) => Quiet(v.(locations := data.GetOr([]), loading := false))
    case Rejected(_) => Quiet(v.(loading := false))
    case TransportError => Step(v.(loading := false), [Toast(Error, "Error cargando ubicaciones")], [], None)
  }

  /** A reload always ends: whatever the two fetches answer, the loading
      flag is down once the last reply of the chain has been handled. */
  lemma ReloadSettles(v: View, areas: Reply<Option<seq<Area>>>, locations: Reply<Option<seq<Location>>>)
    ensures var a := OnAreasReply(Reload(v).state, areas);
      && (a.requests == [] ==> !a.state.loading)
      && (a.requests == [ListLocations] ==> !OnLocationsReply(a.state, locations).state.loading)
      && (a.requests == [] || a.requests == [ListLocations])
  {
  }

  // ---------------------------------------------------------------------
  // Saving
  // ---------------------------------------------------------------------

  /** The open modal edits an existing record (its id is truthy). */
  predicate Editing(m: Option<Modal>)
    requires m.Some?
  {
    TruthyId(m.value.id)
  }

  /** `guardarUbicacion(name, areaId)`. The modal is open whenever the form
      is filled in (the source reads it without a null check). */
  function SaveLocation(v: View, name: string, areaId: string): (r: Step<View>)
    requires name == "" || areaId == "" || v.locationModal.Some?
    ensures r.state == v && r.route == None
    ensures r.requests == [] <==> name == "" || areaId == ""
    ensures r.requests == [] ==> r.toasts == [Toast(Warning, "Complete los datos")]
    ensures r.requests != [] ==>
      |r.requests| == 1 &&
      (if Editing(v.locationModal)
       then r.requests[0] == UpdateLocation(v.locationModal.value.id.value, name, ToNumber(areaId))
       else r.requests[0] == CreateLocation(name, ToNumber(areaId)))
  {
    if name == "" || areaId == "" then Step(v, [Toast(Warning, "Complete los datos")], [], None)
    else
      var area := ToNumber(areaId);
      var request := if Editing(v.locationModal)
        then UpdateLocation(v.locationModal.value.id.value, name, area)
        else CreateLocation(name, area);
      Step(v, [], [request], None)
  }

  /** `guardarArea(name)`. */
  function SaveArea(v: View, name: string): (r: Step<View>)
    requires name == "" || v.areaModal.Some?
    ensures r.state == v && r.route == None
    ensures r.requests == [] <==> name == ""
    ensures r.requests == [] ==> r.toasts == [Toast(Warning, "Ingrese el nombre del área")]
    ensures r.requests != [] ==>
      |r.requests| == 1 &&
      (if Editing(v.areaModal)
       then r.requests[0] == UpdateArea(v.areaModal.value.id.value, name)
       else r.requests[0] == CreateArea(name))
  {
    if name == "" then Step(v, [Toast(Warning, "Ingrese el nombre del área")], [], None)
    else
      var request := if Editing(v.areaModal) then UpdateArea(v.areaModal.value.id.value, name) else CreateArea(name);
      Step(v, [], [request], None)
  }

  /** The reply to a location save (`editing` says which request it answers):
      success closes the modal and reloads; otherwise the modal stays open. */
  function OnLocationSaved(v: View, editing: bool, reply: Reply<()>): (r: Step<View>)
    ensures r.route == None && |r.toasts| == 1
    ensures reply.Ok? ==> r.state.locationModal.None? && r.requests == [ListAreas]
    ensures reply.Ok? ==> r.state == v.(locationModal := None, loading := true)
    ensures !reply.Ok? ==> r.state == v && r.requests == [] && r.toasts[0].level == Error
  {
    match reply
    case Ok(_) =>
      var reload := Reload(v.(locationModal := None));
      Step(reload.state, [Toast(Success, if editing then "Ubicación actualizada" else "Ubicación creada")],
           reload.requests, None)
    case Rejected(msg) => Step(v, [Toast(Error, msg)], [], None)
    case TransportError => Step(v, [Toast(Error, "Error en el servidor")], [], None)
  }

  /** The reply to an area save, as for locations. */
  function OnAreaSaved(v: View, editing: bool, reply: Reply<()>): (r: Step<View>)
    ensures r.route == None && |r.toasts| == 1
    ensures reply.Ok? ==> r.state.areaModal.None? && r.requests == [ListAreas]
    ensures reply.Ok? ==> r.state == v.(areaModal := None, loading := true)
    ensures !reply.Ok? ==> r.state == v && r.requests == [] && r.toasts[0].level == Error
  {
    match reply
    case Ok(_) =>
      var reload := Reload(v.(areaModal := None));
      Step(reload.state, [Toast(Success, if editing then "Área actualizada" else "Área creada")],
           reload.requests, None)
    case Rejected(msg) => Step(v, [Toast(Error, msg)], [], None)
    case TransportError => Step(v, [Toast(Error, "Error en el servidor")], [], None)
  }

  /** Editing a location whose area select holds a printed id sends that id. */
  lemma SaveLocationSendsAreaId(v: View, name: string, area: nat)
    requires name != "" && v.locationModal.Some?
    ensures var r := SaveLocation(v, name, Decimal(area));
      r.requests[0].areaId == Some(area)
  {
    ToNumberOfDecimal(area);
  }

  // ---------------------------------------------------------------------
  // Filtering
  // ---------------------------------------------------------------------

  predicate LocationMatches(term: string, l: Location) {
    Includes(Lower(l.name), term) || (Truthy(l.areaName) && Includes(Lower(l.areaName.value), term))
  }

  predicate AreaMatches(term: string, a: Area) {
    Includes(Lower(a.name), term)
  }

  /** `getFilteredUbicaciones`: the search is lowercased but not trimmed. */
  function FilteredLocations(v: View): (r: seq<Location>)
    ensures IsSubseq(r, v.locations)
    ensures forall l :: l in r <==> l in v.locations && LocationMatches(Lower(v.search), l)
    ensures forall l :: multiset(r)[l] == if LocationMatches(Lower(v.search), l) then multiset(v.locations)[l] else 0
  {
    var term := Lower(v.search);
    var p := (l: Location) => LocationMatches(term, l);
    FilterIsSubseq(v.locations, p);
    FilterCounts(v.locations, p);
    Filter(v.locations, p)
  }

  /** `getFilteredAreas`. */
  function FilteredAreas(v: View): (r: seq<Area>)
    ensures IsSubseq(r, v.areas)
    ensures forall a :: a in r <==> a in v.areas && AreaMatches(Lower(v.search), a)
    ensures forall a :: multiset(r)[a] == if AreaMatches(Lower(v.search), a) then multiset(v.areas)[a] else 0
  {
    var term := Lower(v.search);
    var p := (a: Area) => AreaMatches(term, a);
    FilterIsSubseq(v.areas, p);
    FilterCounts(v.areas, p);
    Filter(v.areas, p)
  }

  /** An empty search keeps every location and every area. */
  lemma EmptySearchKeepsAll(v: View)
    requires v.search == ""
    ensures FilteredLocations(v) == v.locations
    ensures FilteredAreas(v) == v.areas
  {
    assert Lower("") == "";
    forall i | 0 <= i < |v.locations|
      ensures LocationMatches("", v.locations[i])
    {
      IncludesEmpty(Lower(v.locations[i].name));
    }
    FilterKeepsAll(v.locations, l => LocationMatches(Lower(v.search), l));
    forall i | 0 <= i < |v.areas|
      ensures AreaMatches("", v.areas[i])
    {
      IncludesEmpty(Lower(v.areas[i].name));
    }
    FilterKeepsAll(v.areas, a => AreaMatches(Lower(v.search), a));
  }

  /** Typing more characters into the search box only narrows both lists. */
  lemma LongerSearchNarrows(v: View, more: string)
    ensures forall l :: l in FilteredLocations(v.(search := v.search + more)) ==> l in FilteredLocations(v)
    ensures forall a :: a in FilteredAreas(v.(search := v.search + more)) ==> a in FilteredAreas(v)
  {
    var w := v.(search := v.search + more);
    LowerAppend(v.search, more);
    forall l | l in FilteredLocations(w)
      ensures l in FilteredLocations(v)
    {
      if Includes(Lower(l.name), Lower(w.search)) {
        IncludesPrefix(Lower(l.name), Lower(v.search), Lower(more));
      } else {
        IncludesPrefix(Lower(l.areaName.value), Lower(v.search), Lower(more));
      }
    }
    forall a | a in FilteredAreas(w)
      ensures a in FilteredAreas(v)
    {
      IncludesPrefix(Lower(a.name), Lower(v.search), Lower(more));
    }
  }

  /** The search ignores case. */
  lemma SearchIgnoresCase(v: View)
    ensures FilteredLocations(v.(search := Lower(v.search))) == FilteredLocations(v)
    ensures FilteredAreas(v.(search := Lower(v.search))) == FilteredAreas(v)
  {
    LowerIdempotent(v.search);
  }
}

=== FILE: reviewed_tickets.dfy ===
/** The shared list of reviewed tickets: fetched once, sorted oldest first,
    filtered client-side and split into one kanban column per priority. It
    also unwraps the signed-in user and routes to the role's detail page. */
module ReviewedTickets {
  import opened JsValues
  import opened Text
  import opened Seqs
  import opened Effects

  /** The ticket fields this list reads. `createdAt` is the creation time as a
      timestamp. */
  datatype Ticket = Ticket(
    id: nat,
    subject: string,
    description: Option<string>,
    priority: string,
    status: string,
    createdAt: int)

  /** The filter inputs. A date bound that is left empty is None; `to` is
      already the end of its day. */
  datatype Filters = Filters(search: string, priority: string, status: string, from: Option<int>, to: Option<int>)

  const Everything: string := "todos"
  const DefaultFilters: Filters := Filters("", Everything, Everything, None, None)

  /** The signed-in user as the session store returns it: either flat, or
      nested as `{ data: { user } }`. */
  datatype User = User(roleName: Option<string>, unitName: Option<string>, unit: Option<string>, data: Option<UserEnvelope>)
  datatype UserEnvelope = UserEnvelope(user: Option<User>)

  datatype View = View(tickets: seq<Ticket>, filters: Filters, user: Option<User>, loading: bool, errorMsg: string)

  const AdminRole: string := "administrador"

  // ---------------------------------------------------------------------
  // Sorting by creation time
  // ---------------------------------------------------------------------

  predicate SortedByTime(s: seq<Ticket>) {
    forall i, j :: 0 <= i < j < |s| ==> s[i].createdAt <= s[j].createdAt
  }

  /** A ticket no newer than the head of a sorted list can go in front. */
  lemma PrependSorted(x: Ticket, s: seq<Ticket>)
    requires SortedByTime(s)
    requires s == [] || x.createdAt <= s[0].createdAt
    ensures SortedByTime([x] + s)
  {
    var r := [x] + s;
    forall i, j | 0 <= i < j < |r|
      ensures r[i].createdAt <= r[j].createdAt
    {
      if i == 0 {
        assert s[0].createdAt <= s[j - 1].createdAt;
      }
    }
  }

  /** Insert `t` before the first ticket that is not older than it. */
  function InsertByTime(t: Ticket, s: seq<Ticket>): (r: seq<Ticket>)
    requires SortedByTime(s)
    ensures SortedByTime(r)
    ensures multiset(r) == multiset(s) + multiset{t}
    ensures |r| == |s| + 1 && (r[0] == t || (s != [] && r[0] == s[0]))
  {
    if s == [] || t.createdAt <= s[0].createdAt then
      PrependSorted(t, s);
      [t] + s
    else
      assert SortedByTime(s[1..]);
      var rest := InsertByTime(t, s[1..]);
      KeepOlderHead(t, s, rest);
      [s[0]] + rest
  }

  /** The recursive step of `InsertByTime`: an older head stays in front of
      the tail with `t` inserted. */
  lemma KeepOlderHead(t: Ticket, s: seq<Ticket>, rest: seq<Ticket>)
    requires SortedByTime(s) && s != [] && t.createdAt > s[0].createdAt
    requires SortedByTime(rest) && multiset(rest) == multiset(s[1..]) + multiset{t}
    requires |rest| == |s| && (rest[0] == t || (s[1..] != [] && rest[0] == s[1..][0]))
    ensures SortedByTime([s[0]] + rest)
    ensures multiset([s[0]] + rest) == multiset(s) + multiset{t}
  {
    assert s[0].createdAt <= rest[0].createdAt;
    PrependSorted(s[0], rest);
    assert s == [s[0]] + s[1..];
  }

  /** The `sort` in `cargarTickets`: ascending by creation time. The engine's
      sort is stable, and so is this insertion sort. */
  function SortByTime(s: seq<Ticket>): (r: seq<Ticket>)
    ensures SortedByTime(r)
    ensures multiset(r) == multiset(s)
  {
    if s == [] then []
    else
      assert s == [s[0]] + s[1..];
      InsertByTime(s[0], SortByTime(s[1..]))
  }

  /** The tickets created at time `k`. */
  function CreatedAt(k: int): Ticket -> bool {
    (t: Ticket) => t.createdAt == k
  }

  lemma {:induction false} InsertKeepsTies(t: Ticket, s: seq<Ticket>, k: int)
    requires SortedByTime(s)
    ensures Filter(InsertByTime(t, s), CreatedAt(k)) ==
      (if t.createdAt == k then [t] else []) + Filter(s, CreatedAt(k))
    decreases |s|
  {
    var p := CreatedAt(k);
    if s == [] || t.createdAt <= s[0].createdAt {
      FilterCons(t, s, p);
    } else {
      assert SortedByTime(s[1..]);
      InsertKeepsTies(t, s[1..], k);
      InsertPastHead(t, s, k);
    }
  }

  /** Past an older head, the insertion keeps the head and inserts into the
      tail. */
  lemma InsertPastOlderHead(t: Ticket, s: seq<Ticket>)
    requires SortedByTime(s) && s != [] && t.createdAt > s[0].createdAt
    ensures SortedByTime(s[1..])
    ensures InsertByTime(t, s) == [s[0]] + InsertByTime(t, s[1..])
    ensures s == [s[0]] + s[1..]
  {
  }

  /** The step of `InsertKeepsTies` where `t` goes past the head of `s`:
      the head is older than `t`, so at most one of the two is a tie. */
  lemma InsertPastHead(t: Ticket, s: seq<Ticket>, k: int)
    requires SortedByTime(s) && s != [] && t.createdAt > s[0].createdAt
    requires Filter(InsertByTime(t, s[1..]), CreatedAt(k)) ==
      (if t.createdAt == k then [t] else []) + Filter(s[1..], CreatedAt(k))
    ensures Filter(InsertByTime(t, s), CreatedAt(k)) ==
      (if t.createdAt == k then [t] else []) + Filter(s, CreatedAt(k))
  {
    InsertPastOlderHead(t, s);
    TieStep(s[0], InsertByTime(t, s[1..]), s[1..], InsertByTime(t, s), s,
            if t.createdAt == k then [t] else [], CreatedAt(k));
  }

  /** Putting an element in front of two lists whose filters differ by a
      prefix `tie` keeps that difference, provided the element and `tie`
      are not both kept. */
  lemma TieStep<T(!new)>(x: T, rest: seq<T>, xs: seq<T>, whole: seq<T>, full: seq<T>, tie: seq<T>, p: T -> bool)
    requires whole == [x] + rest && full == [x] + xs
    requires Filter(rest, p) == tie + Filter(xs, p)
    requires !p(x) || tie == []
    ensures Filter(whole, p) == tie + Filter(full, p)
  {
    FilterCons(x, rest, p);
    FilterCons(x, xs, p);
    if p(x) {
      assert tie == [];
    }
  }

  /** Stability: tickets created at the same time keep their relative order. */
  lemma {:induction false} SortKeepsTies(s: seq<Ticket>, k: int)
    ensures Filter(SortByTime(s), CreatedAt(k)) == Filter(s, CreatedAt(k))
    decreases |s|
  {
    if s != [] {
      SortKeepsTies(s[1..], k);
      InsertKeepsTies(s[0], SortByTime(s[1..]), k);
    }
  }

  // ---------------------------------------------------------------------
  // Loading
  // ---------------------------------------------------------------------

  /** `cargarTickets`: raise the loading flag, clear the error and fetch. */
  function StartLoad(v: View): (r: Step<View>)
    ensures r.state == v.(loading := true, errorMsg := "")
    ensures r.requests == [ListReviewed]
  {
    Step(v.(loading := true, errorMsg := ""), [], [ListReviewed], None)
  }

  /** The callbacks of the fetch, followed by `finalize`: on success the
      list `resp.data.tickets || []` is stored oldest first. */
  function OnLoadReply(v: View, reply: Reply<Option<seq<Ticket>>>): (r: Step<View>)
    ensures r.requests == [] && r.toasts == [] && r.route == None && !r.state.loading
    ensures reply.Ok? ==>
      && SortedByTime(r.state.tickets)
      && multiset(r.state.tickets) == multiset(reply.data.GetOr([]))
      && r.state == v.(tickets := r.state.tickets, loading := false)
    ensures !reply.Ok? ==> r.state == v.(loading := false, errorMsg := r.state.errorMsg) && r.state.errorMsg != ""
  {
    match reply
    case Ok(data) => Quiet(v.(tickets := SortByTime(data.GetOr([])), loading := false))
    case Rejected(msg) => Quiet(v.(loading := false, errorMsg := Or(msg, "No se pudieron obtener los tickets")))
    case TransportError => Quiet(v.(loading := false, errorMsg := "Error de conexión con el servidor"))
  }

  // ---------------------------------------------------------------------
  // Filtering and kanban columns
  // ---------------------------------------------------------------------

  /** The search text as it is compared: lowercased, then trimmed. */
  function SearchTerm(f: Filters): string {
    Trim(Lower(f.search))
  }

  predicate MatchesSearch(term: string, t: Ticket) {
    || term == ""
    || Includes(Lower(t.subject), term)
    || (t.description.Some? && Includes(Lower(t.description.value), term))
    || Includes(Decimal(t.id), term)
  }

  /** The selected option is compared as it is; only the ticket side is
      lowercased. */
  predicate MatchesOption(selected: string, field: string) {
    selected == Everything || Lower(field) == selected
  }

  predicate Matches(f: Filters, t: Ticket) {
    && MatchesSearch(SearchTerm(f), t)
    && MatchesOption(f.priority, t.priority)
    && MatchesOption(f.status, t.status)
    && (f.from.None? || t.createdAt >= f.from.value)
    && (f.to.None? || t.createdAt <= f.to.value)
  }

  /** `getFilteredTickets`. */
  function FilteredTickets(v: View): (r: seq<Ticket>)
    ensures IsSubseq(r, v.tickets)
    ensures forall t :: t in r <==> t in v.tickets && Matches(v.filters, t)
    ensures forall t :: multiset(r)[t] == if Matches(v.filters, t) then multiset(v.tickets)[t] else 0
  {
    var p := (t: Ticket) => Matches(v.filters, t);
    FilterIsSubseq(v.tickets, p);
    FilterCounts(v.tickets, p);
    Filter(v.tickets, p)
  }

  /** The default filters keep every ticket. */
  lemma DefaultFiltersKeepAll(v: View)
    requires v.filters == DefaultFilters
    ensures FilteredTickets(v) == v.tickets
  {
    var p := t => Matches(v.filters, t);
    forall i | 0 <= i < |v.tickets|
      ensures p(v.tickets[i])
    {
      DefaultMatches(v.tickets[i]);
    }
    FilterKeepsAll(v.tickets, p);
  }

  /** Every ticket passes the default filters. */
  lemma DefaultMatches(t: Ticket)
    ensures Matches(DefaultFilters, t)
  {
    assert SearchTerm(DefaultFilters) == "" by {
      assert Lower("") == "";
      TrimEmptyIff("");
    }
  }

  /** `resetFiltros`. */
  function ResetFilters(v: View): (r: View)
    ensures r.filters == DefaultFilters
    ensures r.tickets == v.tickets && r.user == v.user
    ensures r.loading == v.loading && r.errorMsg == v.errorMsg
    ensures FilteredTickets(r) == v.tickets
  {
    var r := v.(filters := DefaultFilters);
    DefaultFiltersKeepAll(r);
    r
  }

  /** A reset outlives the next load: every ticket that arrives afterwards is
      shown, as often as it arrived. */
  lemma ResetThenLoadShowsAll(v: View, data: seq<Ticket>)
    ensures multiset(FilteredTickets(OnLoadReply(ResetFilters(v), Ok(Some(data))).state)) == multiset(data)
  {
    var loaded := OnLoadReply(ResetFilters(v), Ok(Some(data))).state;
    DefaultFiltersKeepAll(loaded);
  }

  /** The tickets whose priority is `column`, ignoring case. */
  function InColumn(column: string): Ticket -> bool {
    (t: Ticket) => Lower(t.priority) == Lower(column)
  }

  /** `getTicketsByPriority(column)`. */
  function TicketsByPriority(v: View, column: string): (r: seq<Ticket>)
    ensures IsSubseq(r, FilteredTickets(v))
    ensures forall t :: t in r <==> t in FilteredTickets(v) && Lower(t.priority) == Lower(column)
    ensures forall t :: multiset(r)[t] == if InColumn(column)(t) then multiset(FilteredTickets(v))[t] else 0
  {
    FilterIsSubseq(FilteredTickets(v), InColumn(column));
    FilterCounts(FilteredTickets(v), InColumn(column));
    Filter(FilteredTickets(v), InColumn(column))
  }

  /** Columns whose names differ other than in case share no ticket. */
  lemma ColumnsDisjoint(v: View, c1: string, c2: string, t: Ticket)
    requires Lower(c1) != Lower(c2)
    ensures !(t in TicketsByPriority(v, c1) && t in TicketsByPriority(v, c2))
  {
  }

  /** Under a priority filter, every column of another priority is empty. */
  lemma OtherColumnsEmptyUnderPriorityFilter(v: View, column: string)
    requires v.filters.priority != Everything && Lower(column) != v.filters.priority
    ensures TicketsByPriority(v, column) == []
  {
    var f := FilteredTickets(v);
    forall i | 0 <= i < |f|
      ensures !InColumn(column)(f[i])
    {
      assert f[i] in f;
    }
    FilterKeepsNone(f, InColumn(column));
  }

  // ---------------------------------------------------------------------
  // The signed-in user
  // ---------------------------------------------------------------------

  /** `cargarUsuario`: take `raw.data.user` when that path exists, else the
      stored value itself. */
  function LoadUser(raw: Option<User>): (r: Option<User>)
    ensures r.Some? <== raw.Some?
    ensures raw.Some? && raw.value.data.None? ==> r == raw
    ensures r != raw ==> raw.Some? && raw.value.data.Some? && r == raw.value.data.value.user
    ensures raw.Some? && raw.value.data.Some? && raw.value.data.value.user.Some? ==> r == raw.value.data.value.user
  {
    if raw.Some? && raw.value.data.Some? && raw.value.data.value.user.Some? then raw.value.data.value.user
    else raw
  }

  /** A user stored nested under `data.user`. */
  function Nest(u: User): User {
    User(None, None, None, Some(UserEnvelope(Some(u))))
  }

  /** Unwrapping recovers a nested user, whatever it holds. */
  lemma LoadUserUnnests(u: User)
    ensures LoadUser(Some(Nest(u))) == Some(u)
  {
  }

  /** `verDetalle(id)`: reload the user when there is none, then route by
      role; without a user or a role nothing happens. */
  function ViewDetail(v: View, raw: Option<User>, id: nat): (r: Step<View>)
    ensures r.requests == [] && r.toasts == []
    ensures r.state == v.(user := r.state.user)
    ensures v.user.Some? ==> r.state.user == v.user
    ensures v.user.None? ==> r.state.user == LoadUser(raw)
    ensures r.route.None? <==> r.state.user.None? || !Truthy(r.state.user.value.roleName)
    ensures r.route.Some? ==>
      r.route.value == (if r.state.user.value.roleName.value == AdminRole then "/admin/ticket/" else "/soporte/ticket/")
        + Decimal(id)
  {
    var user := if v.user.None? then LoadUser(raw) else v.user;
    var w := v.(user := user);
    if user.None? || !Truthy(user.value.roleName) then Quiet(w)
    else if user.value.roleName.value == AdminRole then Step(w, [], [], Some("/admin/ticket/" + Decimal(id)))
    else Step(w, [], [], Some("/soporte/ticket/" + Decimal(id)))
  }

  /** The unit name shown in the header: `nombre_unidad`, then `unidad`, then
      "Unidad Central". */
  function UnitSource(u: User): (r: string)
    ensures r != ""
    ensures Truthy(u.unitName) ==> r == u.unitName.value
    ensures !Truthy(u.unitName) && Truthy(u.unit) ==> r == u.unit.value
    ensures !Truthy(u.unitName) && !Truthy(u.unit) ==> r == "Unidad Central"
  {
    OptOr(u.unitName, OptOr(u.unit, "Unidad Central"))
  }

  /** `nombreUnidad`: "Cargando..." until a user is known, otherwise the unit
      name with its first letter capitalised and the rest untouched. */
  function UnitTitle(user: Option<User>): (r: string)
    ensures user.None? ==> r == "Cargando..."
    ensures user.Some? ==>
      var u := UnitSource(user.value);
      && |u| <= |r| <= |u| + 1
      && r[|r| - |u| + 1..] == u[1..]
      && !IsLowerLetter(r[0])
    ensures user.Some? ==> r == Capitalize(UnitSource(user.value))
  {
    if user.None? then "Cargando..." else Capitalize(UnitSource(user.value))
  }

  /** The title shows the unit's name as stored, up to the case of its first
      letter. */
  lemma UnitTitleKeepsName(u: User)
    requires var n := UnitSource(u); IsUpper(n[0]) || IsLowerLetter(n[0])
    ensures |UnitTitle(Some(u))| == |UnitSource(u)|
    ensures Lower(UnitTitle(Some(u))) == Lower(UnitSource(u))
  {
    CapitalizeLowersBack(UnitSource(u));
  }

  /** A user with no unit at all is shown under "Unidad Central". */
  lemma UnitTitleWithoutUnit(role: Option<string>)
    ensures UnitTitle(Some(User(role, None, None, None))) == "Unidad Central"
  {
    assert UpperText('U') == "U";
  }

  /** A user stored nested under `data.user` is unwrapped on the way and
      routed by its own role; the route ends with the ticket's id, which
      reads back as that id. */
  lemma NestedUserRoutesByOwnRole(v: View, u: User, id: nat)
    requires v.user.None? && Truthy(u.roleName)
    ensures var r := ViewDetail(v, Some(Nest(u)), id);
      && r.state.user == Some(u)
      && r.route.Some?
      && r.route.value == (if u.roleName.value == AdminRole then "/admin/ticket/" else "/soporte/ticket/") + Decimal(id)
      && ParseDecimal(r.route.value[|r.route.value| - |Decimal(id)|..]) == Some(id)
  {
    var r := ViewDetail(v, Some(Nest(u)), id);
    LoadUserUnnests(u);
    ParseDecimalRoundTrip(id);
    var prefix := if u.roleName.value == AdminRole then "/admin/ticket/" else "/soporte/ticket/";
    assert r.route.value == prefix + Decimal(id);
    assert r.route.value[|r.route.value| - |Decimal(id)|..] == Decimal(id);
  }

  /** A nested user without a role goes nowhere. */
  lemma NestedUserWithoutRoleStays(v: View, u: User, id: nat)
    requires v.user.None? && !Truthy(u.roleName)
    ensures ViewDetail(v, Some(Nest(u)), id).route.None?
  {
    LoadUserUnnests(u);
  }
}

=== FILE: seqs.dfy ===
/** Sequence operations the list views perform on their in-memory arrays:
    `Array.prototype.filter` and `Array.prototype.slice`. */
module Seqs {

  function Min(a: int, b: int): int { if a <= b then a else b }

  function Max(a: int, b: int): int { if a <= b then b else a }

  /** `a` is `b` with some elements dropped and the rest kept in order. */
  ghost predicate IsSubseq<T>(a: seq<T>, b: seq<T>)
    decreases |b|
  {
    |a| <= |b| &&
    (a == [] || (a[0] == b[0] && IsSubseq(a[1..], b[1..])) || IsSubseq(a, b[1..]))
  }

  /** `s.filter(p)`: the elements satisfying `p`, in their original order.
      FilterIsSubseq and FilterCounts state the rest of its meaning. */
  function Filter<T(==,!new)>(s: seq<T>, p: T -> bool): (r: seq<T>)
    ensures |r| <= |s|
    ensures forall x :: x in r <==> x in s && p(x)
  {
    if s == [] then []
    else
      var rest := Filter(s[1..], p);
      if p(s[0]) then [s[0]] + rest else rest
  }

  /** The kept elements are in their original order. */
  lemma {:induction false} FilterIsSubseq<T(!new)>(s: seq<T>, p: T -> bool)
    ensures IsSubseq(Filter(s, p), s)
  {
    if s != [] {
      FilterIsSubseq(s[1..], p);
      var rest := Filter(s[1..], p);
      if p(s[0]) {
        assert ([s[0]] + rest)[1..] == rest;
      } else {
        SubseqOfTail(rest, s);
      }
    }
  }

  lemma SubseqOfTail<T>(a: seq<T>, b: seq<T>)
    requires b != [] && IsSubseq(a, b[1..])
    ensures IsSubseq(a, b)
  {
  }

  /** Each kept element keeps its multiplicity; the others are gone. */
  lemma {:induction false} FilterCounts<T(!new)>(s: seq<T>, p: T -> bool)
    ensures forall x :: multiset(Filter(s, p))[x] == if p(x) then multiset(s)[x] else 0
  {
    if s != [] {
      FilterCounts(s[1..], p);
      assert s == [s[0]] + s[1..];
    }
  }

  /** Filtering with a predicate every element satisfies keeps everything. */
  lemma {:induction false} FilterKeepsAll<T(!new)>(s: seq<T>, p: T -> bool)
    requires forall i :: 0 <= i < |s| ==> p(s[i])
    ensures Filter(s, p) == s
  {
    if s != [] {
      FilterKeepsAll(s[1..], p);
    }
  }

  /** Filtering with a predicate no element satisfies keeps nothing. */
  lemma {:induction false} FilterKeepsNone<T(!new)>(s: seq<T>, p: T -> bool)
    requires forall i :: 0 <= i < |s| ==> !p(s[i])
    ensures Filter(s, p) == []
  {
    if s != [] {
      FilterKeepsNone(s[1..], p);
    }
  }

  /** The index `slice` starts or stops at for a possibly negative argument. */
  function SliceIndex(k: int, len: nat): (r: int)
    ensures 0 <= r <= len
    ensures 0 <= k ==> r == Min(k, len)
  {
    if k < 0 then Max(len + k, 0) else Min(k, len)
  }

  /** `s.slice(start, end)`: negative indices count from the end, indices
      past the end are clamped, and an empty range gives []. */
  function Slice<T>(s: seq<T>, start: int, end: int): (r: seq<T>)
    ensures |r| <= |s|
    ensures 0 <= start <= end ==> |r| == Max(0, Min(end, |s|) - start)
    ensures 0 <= start ==> forall i :: 0 <= i < |r| ==> start + i < |s| && r[i] == s[start + i]
  {
    var from := SliceIndex(start, |s|);
    var to := SliceIndex(end, |s|);
    if to <= from then [] else s[from..to]
  }

  /** For non-negative bounds, `slice` is the clamped index range. */
  lemma SliceIsRange<T>(s: seq<T>, start: int, end: int)
    requires 0 <= start <= end
    ensures Min(start, |s|) <= Min(end, |s|)
    ensures Slice(s, start, end) == s[Min(start, |s|)..Min(end, |s|)]
  {
  }

  /** Filtering a sequence with a given first element. */
  lemma FilterCons<T(!new)>(x: T, s: seq<T>, p: T -> bool)
    ensures Filter([x] + s, p) == (if p(x) then [x] else []) + Filter(s, p)
  {
    assert ([x] + s)[1..] == s;
  }
}

=== FILE: text.dfy ===
/** The string primitives the view models call: `toLowerCase`, the first-letter
    `toUpperCase`, `trim`, `includes`, `Number.prototype.toString` on ids and
    `Number(s)` on form values. Strings are sequences of code points. */
module Text {
  import opened JsValues

  // ---------------------------------------------------------------------
  // Case mapping (ASCII and Latin-1; see README for what is not folded)
  // ---------------------------------------------------------------------

  /** Capital letters that `toLowerCase` maps one-to-one, 32 code points up. */
  predicate IsUpper(c: char) {
    ('A' <= c <= 'Z') || ('\U{C0}' <= c <= '\U{DE}' && c != '\U{D7}')
  }

  /** Small letters that `toUpperCase` maps one-to-one, 32 code points down. */
  predicate IsLowerLetter(c: char) {
    ('a' <= c <= 'z') || ('\U{E0}' <= c <= '\U{FE}' && c != '\U{F7}')
  }

  function LowerChar(c: char): (d: char)
    ensures !IsUpper(d)
    ensures IsUpper(c) ==> IsLowerLetter(d) && d as int == c as int + 32
    ensures !IsUpper(c) ==> d == c
  {
    if IsUpper(c) then (c as int + 32) as char else c
  }

  /** `s.toLowerCase()`. */
  function Lower(s: string): (r: string)
    ensures |r| == |s|
    ensures forall i :: 0 <= i < |s| ==> r[i] == LowerChar(s[i])
  {
    seq(|s|, i requires 0 <= i < |s| => LowerChar(s[i]))
  }

  predicate IsLowerText(s: string) {
    forall i :: 0 <= i < |s| ==> !IsUpper(s[i])
  }

  /** Lowercasing leaves no capital letter behind and changes nothing else
      in a text that has none, so lowercasing twice is lowercasing once. */
  lemma LowerIsLowerText(s: string)
    ensures IsLowerText(Lower(s))
  {
  }

  lemma LowerKeepsLowerText(s: string)
    requires IsLowerText(s)
    ensures Lower(s) == s
  {
  }

  lemma LowerIdempotent(s: string)
    ensures Lower(Lower(s)) == Lower(s)
  {
    LowerIsLowerText(s);
    LowerKeepsLowerText(Lower(s));
  }

  lemma LowerAppend(a: string, b: string)
    ensures Lower(a + b) == Lower(a) + Lower(b)
  {
  }

  /** `c.toUpperCase()`, which is a string because 'ß' becomes "SS". */
  function UpperText(c: char): (r: string)
    ensures 1 <= |r| <= 2
    ensures forall i :: 0 <= i < |r| ==> !IsLowerLetter(r[i])
    ensures IsLowerLetter(c) ==> |r| == 1 && IsUpper(r[0]) && LowerChar(r[0]) == c
    ensures c == '\U{DF}' ==> r == "SS"
    ensures c == '\U{FF}' ==> r == "\U{178}"
    ensures c == '\U{B5}' ==> r == "\U{39C}"
    ensures !IsLowerLetter(c) && c != '\U{DF}' && c != '\U{FF}' && c != '\U{B5}' ==> r == [c]
  {
    if IsLowerLetter(c) then [(c as int - 32) as char]
    else if c == '\U{DF}' then "SS"
    else if c == '\U{FF}' then "\U{178}"
    else if c == '\U{B5}' then "\U{39C}"
    else [c]
  }

  /** Capitalising a letter does not depend on the case it was stored in. */
  lemma UpperTextOfLower(c: char)
    ensures UpperText(LowerChar(c)) == UpperText(c)
  {
  }

  /** Capitalising a letter gives one capital letter that lowercases to the
      same letter as the original. */
  lemma UpperTextOfLetter(c: char)
    requires IsUpper(c) || IsLowerLetter(c)
    ensures |UpperText(c)| == 1 && IsUpper(UpperText(c)[0])
    ensures LowerChar(UpperText(c)[0]) == LowerChar(c)
  {
  }

  /** `s.charAt(0).toUpperCase() + s.slice(1)`. */
  function Capitalize(s: string): (r: string)
    ensures s == "" ==> r == ""
    ensures s != "" ==> |s| <= |r| <= |s| + 1 && r[|r| - |s| + 1..] == s[1..]
    ensures s != "" ==> r[..|r| - |s| + 1] == UpperText(s[0]) && !IsLowerLetter(r[0])
  {
    if s == "" then "" else UpperText(s[0]) + s[1..]
  }

  /** Capitalising a text that starts with a letter keeps its length and
      changes nothing that lowercasing would see. */
  lemma CapitalizeLowersBack(s: string)
    requires s != "" && (IsUpper(s[0]) || IsLowerLetter(s[0]))
    ensures |Capitalize(s)| == |s|
    ensures Lower(Capitalize(s)) == Lower(s)
  {
    UpperTextOfLetter(s[0]);
    var r := Capitalize(s);
    assert r == UpperText(s[0]) + s[1..];
    forall i | 0 <= i < |s|
      ensures Lower(r)[i] == Lower(s)[i]
    {
      if i > 0 {
        assert r[i] == s[i];
      }
    }
  }

  // ---------------------------------------------------------------------
  // trim
  // ---------------------------------------------------------------------

  /** The characters `String.prototype.trim` removes: ECMAScript WhiteSpace
      and LineTerminator. */
  predicate IsJsSpace(c: char) {
    c == '\t' || c == '\n' || c == '\U{B}' || c == '\U{C}' || c == '\r' || c == ' '
    || c == '\U{A0}' || c == '\U{1680}' || ('\U{2000}' <= c <= '\U{200A}')
    || c == '\U{2028}' || c == '\U{2029}' || c == '\U{202F}' || c == '\U{205F}'
    || c == '\U{3000}' || c == '\U{FEFF}'
  }

  predicate AllSpace(s: string) {
    forall i :: 0 <= i < |s| ==> IsJsSpace(s[i])
  }

  function TrimStart(s: string): (r: string)
    ensures |r| <= |s| && r == s[|s| - |r|..]
    ensures AllSpace(s[..|s| - |r|])
    ensures r == [] || !IsJsSpace(r[0])
  {
    if |s| > 0 && IsJsSpace(s[0]) then
      var r := TrimStart(s[1..]);
      assert s[..|s| - |r|] == [s[0]] + s[1..][..|s| - 1 - |r|];
      assert s[|s| - |r|..] == s[1..][|s| - 1 - |r|..];
      r
    else s
  }

  function TrimEnd(s: string): (r: string)
    ensures |r| <= |s| && r == s[..|r|]
    ensures AllSpace(s[|r|..])
    ensures r == [] || !IsJsSpace(r[|r| - 1])
  {
    if |s| > 0 && IsJsSpace(s[|s| - 1]) then
      var r := TrimEnd(s[..|s| - 1]);
      assert s[|r|..] == s[..|s| - 1][|r|..] + [s[|s| - 1]];
      r
    else s
  }

  /** `r` sits at offset `k` of `s` with only spaces around it. */
  ghost predicate SpaceFramed(s: string, r: string, k: int) {
    0 <= k <= |s| - |r| && s[k..k + |r|] == r && AllSpace(s[..k]) && AllSpace(s[k + |r|..])
  }

  /** `s.trim()`: the longest inner part of `s` that neither starts nor ends
      with a space, with only spaces cut away around it. */
  function Trim(s: string): (r: string)
    ensures exists k :: SpaceFramed(s, r, k)
    ensures r == [] || (!IsJsSpace(r[0]) && !IsJsSpace(r[|r| - 1]))
  {
    var a := TrimStart(s);
    var r := TrimEnd(a);
    TrimmedIsFramed(s, a, r);
    r
  }

  /** Cutting spaces from the front of `s` (leaving `a`) and then from the
      back of `a` (leaving `r`) leaves `r` framed by spaces in `s`. */
  lemma TrimmedIsFramed(s: string, a: string, r: string)
    requires |a| <= |s| && a == s[|s| - |a|..] && AllSpace(s[..|s| - |a|])
    requires |r| <= |a| && r == a[..|r|] && AllSpace(a[|r|..])
    ensures SpaceFramed(s, r, |s| - |a|)
  {
    var k := |s| - |a|;
    assert s[k..k + |r|] == a[..|r|];
    assert s[k + |r|..] == a[|r|..];
    assert AllSpace(s[..k]);
    assert AllSpace(s[k + |r|..]);
  }

  /** Trimming a text that is all spaces gives "", and only then. */
  lemma TrimEmptyIff(s: string)
    ensures Trim(s) == "" <==> AllSpace(s)
  {
    var a := TrimStart(s);
    if a == [] {
      assert s[..|s|] == s;
    } else {
      assert s[|s| - |a|] == a[0];
      assert TrimEnd(a) != [];
    }
  }

  /** Lowercasing keeps spaces where they are, so it commutes with `trim`'s
      test for an empty search. */
  lemma LowerKeepsSpaces(s: string)
    ensures AllSpace(Lower(s)) <==> AllSpace(s)
  {
    assert forall c :: IsJsSpace(c) ==> !IsUpper(c);
  }

  // ---------------------------------------------------------------------
  // includes
  // ---------------------------------------------------------------------

  predicate OccursAt(hay: string, needle: string, i: int) {
    0 <= i <= |hay| - |needle| && hay[i..i + |needle|] == needle
  }

  /** `hay.includes(needle)`, by scanning the start positions left to right. */
  predicate Includes(hay: string, needle: string)
    decreases |hay|
  {
    if |needle| <= |hay| && hay[..|needle|] == needle then true
    else if hay == [] then false
    else Includes(hay[1..], needle)
  }

  /** The scan finds `needle` exactly when it occurs somewhere in `hay`. */
  lemma {:induction false} IncludesIff(hay: string, needle: string)
    ensures Includes(hay, needle) <==> exists i :: OccursAt(hay, needle, i)
    decreases |hay|
  {
    if |needle| <= |hay| && hay[..|needle|] == needle {
      assert OccursAt(hay, needle, 0);
    } else if hay == [] {
      assert |needle| > 0;
    } else {
      IncludesIff(hay[1..], needle);
      if Includes(hay[1..], needle) {
        var j :| OccursAt(hay[1..], needle, j);
        assert hay[j + 1..j + 1 + |needle|] == hay[1..][j..j + |needle|];
        assert OccursAt(hay, needle, j + 1);
      }
      if exists i :: OccursAt(hay, needle, i) {
        var i :| OccursAt(hay, needle, i);
        assert i != 0;
        assert hay[1..][i - 1..i - 1 + |needle|] == hay[i..i + |needle|];
        assert OccursAt(hay[1..], needle, i - 1);
      }
    }
  }

  /** Every text includes the empty search. */
  lemma IncludesEmpty(hay: string)
    ensures Includes(hay, "")
  {
    assert hay[..0] == "";
  }

  /** A text that includes `a + b` includes `a`: typing more characters into
      a search box can only narrow what it matches. */
  lemma IncludesPrefix(hay: string, a: string, b: string)
    requires Includes(hay, a + b)
    ensures Includes(hay, a)
  {
    IncludesIff(hay, a + b);
    var i :| OccursAt(hay, a + b, i);
    assert hay[i..i + |a|] == (a + b)[..|a|] == a;
    assert OccursAt(hay, a, i);
    IncludesIff(hay, a);
  }

  // ---------------------------------------------------------------------
  // Decimal numbers
  // ---------------------------------------------------------------------

  predicate IsDigit(c: char) {
    '0' <= c <= '9'
  }

  predicate AllDigits(s: string) {
    forall i :: 0 <= i < |s| ==> IsDigit(s[i])
  }

  function DigitChar(d: int): (c: char)
    requires 0 <= d < 10
    ensures IsDigit(c) && c as int - '0' as int == d
  {
    ('0' as int + d) as char
  }

  /** `n.toString()` for a non-negative integer id. */
  function Decimal(n: nat): (r: string)
    ensures |r| >= 1 && AllDigits(r)
    ensures r[0] != '0' || r == "0"
    decreases n
  {
    if n < 10 then [DigitChar(n)] else Decimal(n / 10) + [DigitChar(n % 10)]
  }

  /** The value of a string of decimal digits, leading zeros allowed. */
  function DigitsValue(s: string): nat
    requires AllDigits(s)
    decreases |s|
  {
    if s == [] then 0
    else DigitsValue(s[..|s| - 1]) * 10 + (s[|s| - 1] as int - '0' as int)
  }

  /** The value of a non-empty string of decimal digits, or None (NaN). */
  function ParseDecimal(s: string): Option<nat> {
    if s != [] && AllDigits(s) then Some(DigitsValue(s)) else None
  }

  /** Reading back a printed id gives the id. */
  lemma {:induction false} ParseDecimalRoundTrip(n: nat)
    ensures ParseDecimal(Decimal(n)) == Some(n)
    decreases n
  {
    if n >= 10 {
      ParseDecimalRoundTrip(n / 10);
      var d := Decimal(n);
      assert d == Decimal(n / 10) + [DigitChar(n % 10)];
      assert d[..|d| - 1] == Decimal(n / 10);
      assert DigitsValue(d) == DigitsValue(Decimal(n / 10)) * 10 + n % 10;
    }
  }

  /** Two ids print the same only if they are equal. */
  lemma DecimalInjective(a: nat, b: nat)
    requires Decimal(a) == Decimal(b)
    ensures a == b
  {
    ParseDecimalRoundTrip(a);
    ParseDecimalRoundTrip(b);
  }

  /** `Number(s)` for a form value: surrounding spaces are ignored, a blank
      string is 0, and a plain decimal numeral is its value; every other text
      is NaN, written None (it is sent as JSON null). */
  function ToNumber(s: string): (r: Option<nat>)
    ensures AllSpace(s) ==> r == Some(0)
    ensures r.Some? ==> AllSpace(s) || AllDigits(Trim(s))
    ensures !AllSpace(s) && AllDigits(Trim(s)) ==> r == Some(DigitsValue(Trim(s)))
    ensures !AllSpace(s) && !AllDigits(Trim(s)) ==> r.None?
  {
    TrimEmptyIff(s);
    var t := Trim(s);
    if t == "" then Some(0) else ParseDecimal(t)
  }

  /** A text that neither starts nor ends with a space is its own trim. */
  lemma TrimKeepsFramedText(s: string)
    requires s == [] || (!IsJsSpace(s[0]) && !IsJsSpace(s[|s| - 1]))
    ensures Trim(s) == s
  {
    assert TrimStart(s) == s;
    assert TrimEnd(s) == s;
  }

  /** `Number` reads back a printed id. */
  lemma ToNumberOfDecimal(n: nat)
    ensures ToNumber(Decimal(n)) == Some(n)
  {
    var d := Decimal(n);
    assert !IsJsSpace(d[0]) && !IsJsSpace(d[|d| - 1]);
    TrimKeepsFramedText(d);
    ParseDecimalRoundTrip(n);
  }
}

=== FILE: ticket_review.dfy ===
/** The admin page that reviews one ticket: it loads the ticket, maps its
    unit, priority and status labels to the numeric ids of the form, and
    guards three actions (save classification, assign an agent, complete the
    review). Every handler is a pure step from the view state (and, for reply
    callbacks, the server's reply) to a new state and its side effects. */
module TicketReview {
  import opened JsValues
  import opened Text
  import opened Effects

  /** The ticket fields this page reads; the labels are free text. */
  datatype Ticket = Ticket(id: int, unit: Option<string>, priority: Option<string>, status: Option<string>)

  /** The ticket's detail record: the assigned agent's id and name. */
  datatype Detail = Detail(assignedAgent: Option<int>, agentName: Option<string>)

  /** `resp.data.ticket`: the ticket and its detail, as one wrapper. */
  datatype Loaded = Loaded(ticket: Ticket, detail: Option<Detail>)

  datatype Agent = Agent(id: int, name: string)

  datatype View = View(
    ticket: Option<Ticket>,
    detail: Option<Detail>,
    agents: seq<Agent>,
    loading: bool,
    savingConfig: bool,
    classificationSaved: bool,
    unitId: Option<int>,
    priorityId: Option<int>,
    statusId: Option<int>)

  const Initial: View := View(None, None, [], false, false, false, None, None, None)

  const BackRoute: string := "/admin/tickets/sin-revisar"
  const ReviewedRoute: string := "/admin/tickets/revisados"

  const InProcess: string := "en proceso"

  const UnitIds: map<string, int> := map["soporte técnico" := 1, "infraestructura" := 2, "desarrollo" := 3]
  const PriorityIds: map<string, int> := map["baja" := 1, "media" := 2, "alta" := 3]
  const StatusIds: map<string, int> := map["abierto" := 1, "en proceso" := 2, "resuelto" := 3, "cerrado" := 4]

  const UnitMissing: string := "Debes seleccionar una Unidad Responsable."
  const PriorityMissing: string := "Debes seleccionar un Nivel de Prioridad."
  const AssignBeforeSave: string := "Debes guardar la clasificación (Unidad y Prioridad) antes de asignar."
  const ReviewBeforeSave: string := "Debes clasificar el ticket (Unidad y Prioridad) antes de finalizar."
  const NoAgentAdvice: string := "Te recomendamos asignar un técnico antes de finalizar la revisión, aunque no es obligatorio."

  // ---------------------------------------------------------------------
  // Label -> id mapping
  // ---------------------------------------------------------------------

  /** The key a label is looked up under: lowercased, or "" when missing. */
  function LabelKey(text: Option<string>): string {
    if Truthy(text) then Lower(text.value) else ""
  }

  /** `map[key] || null`; every id in the maps is non-zero. */
  function Lookup(m: map<string, int>, text: Option<string>): Option<int> {
    var key := LabelKey(text);
    if key in m then Some(m[key]) else None
  }

  function UnitId(text: Option<string>): (r: Option<int>)
    ensures r == Some(1) <==> LabelKey(text) == "soporte técnico"
    ensures r == Some(2) <==> LabelKey(text) == "infraestructura"
    ensures r == Some(3) <==> LabelKey(text) == "desarrollo"
    ensures r.Some? ==> 1 <= r.value <= 3
  {
    Lookup(UnitIds, text)
  }

  function PriorityId(text: Option<string>): (r: Option<int>)
    ensures r == Some(1) <==> LabelKey(text) == "baja"
    ensures r == Some(2) <==> LabelKey(text) == "media"
    ensures r == Some(3) <==> LabelKey(text) == "alta"
    ensures r.Some? ==> 1 <= r.value <= 3
  {
    Lookup(PriorityIds, text)
  }

  function StatusId(text: Option<string>): (r: Option<int>)
    ensures r == Some(1) <==> LabelKey(text) == "abierto"
    ensures r == Some(2) <==> LabelKey(text) == "en proceso"
    ensures r == Some(3) <==> LabelKey(text) == "resuelto"
    ensures r == Some(4) <==> LabelKey(text) == "cerrado"
    ensures r.Some? ==> 1 <= r.value <= 4
  {
    Lookup(StatusIds, text)
  }

  /** The lookup ignores case: a label and its lowercase form map alike. */
  lemma LookupIgnoresCase(m: map<string, int>, text: string)
    ensures Lookup(m, Some(text)) == Lookup(m, Some(Lower(text)))
  {
    LowerIdempotent(text);
  }

  /** A missing or empty label maps to no id. */
  lemma MissingLabelHasNoId(text: Option<string>)
    requires !Truthy(text)
    ensures UnitId(text) == None && PriorityId(text) == None && StatusId(text) == None
  {
  }

  /** The form is read-only once the ticket is in process or both its unit
      and its priority are set. */
  predicate Locks(statusKey: string, unitId: Option<int>, priorityId: Option<int>) {
    statusKey == InProcess || (TruthyId(unitId) && TruthyId(priorityId))
  }

  // ---------------------------------------------------------------------
  // Loading
  // ---------------------------------------------------------------------

  /** `cargar(id)`: raise the loading flag and fetch the ticket. */
  function StartLoad(v: View, id: int): (r: Step<View>)
    ensures r.state == v.(loading := true)
    ensures r.requests == [GetTicket(id)] && r.toasts == [] && r.route == None
  {
    Step(v.(loading := true), [], [GetTicket(id)], None)
  }

  /** `ngOnInit` with the route's id already passed through `Number`
      (None stands for NaN). */
  function Init(v: View, id: Option<int>): (r: Step<View>)
    ensures TruthyId(id) ==> r.requests == [GetTicket(id.value), ListAgents] && r.route == None
    ensures TruthyId(id) ==> r.state == v.(loading := true)
    ensures !TruthyId(id) ==> r.requests == [] && r.route == Some(BackRoute) && r.state == v
  {
    if !TruthyId(id) then
      Step(v, [Toast(Error, "Identificador de ticket inválido")], [], Some(BackRoute))
    else
      var load := StartLoad(v, id.value);
      Step(load.state, [], load.requests + [ListAgents], None)
  }

  /** The `next`/`error` callbacks of `getTicketById`, followed by `finalize`. */
  function OnTicketReply(v: View, reply: Reply<Option<Loaded>>): (r: Step<View>)
    ensures r.requests == [] && r.route == None && !r.state.loading
    ensures !(reply.Ok? && reply.data.Some?) ==> r.state == v.(loading := false)
    ensures reply.Ok? && reply.data.Some? ==>
      var w := reply.data.value;
      && r.state.ticket == Some(w.ticket)
      && r.state.detail == w.detail
      && r.state.unitId == UnitId(w.ticket.unit)
      && r.state.priorityId == PriorityId(w.ticket.priority)
      && r.state.statusId == StatusId(w.ticket.status)
      && (r.state.classificationSaved <==>
            LabelKey(w.ticket.status) == InProcess || (r.state.unitId.Some? && r.state.priorityId.Some?))
      && r.state.agents == v.agents && r.state.savingConfig == v.savingConfig
    ensures reply.Rejected? || reply.TransportError? ==> |r.toasts| == 1 && r.toasts[0].level == Error
  {
    var done := v.(loading := false);
    match reply
    case TransportError => Step(done, [Toast(Error, "Error de conexión cargando datos")], [], None)
    case Rejected(msg) => Step(done, [Toast(Error, Or(msg, "No se pudo obtener el ticket"))], [], None)
    case Ok(None) => Quiet(done)
    case Ok(Some(w)) =>
      var t := w.ticket;
      var u := UnitId(t.unit);
      var p := PriorityId(t.priority);
      var e := StatusId(t.status);
      Quiet(done.(ticket := Some(t), detail := w.detail, unitId := u, priorityId := p, statusId := e,
                  classificationSaved := Locks(LabelKey(t.status), u, p)))
  }

  /** `cargarSoportes`: on success keep `resp.data || []`; nothing else. */
  function OnAgentsReply(v: View, reply: Reply<Option<seq<Agent>>>): (r: Step<View>)
    ensures r.requests == [] && r.toasts == [] && r.route == None
    ensures r.state == v.(agents := r.state.agents)
    ensures reply.Ok? ==> r.state.agents == reply.data.GetOr([])
    ensures !reply.Ok? ==> r.state == v
  {
    match reply
    case Ok(data) => Quiet(v.(agents := data.GetOr([])))
    case _ => Quiet(v)
  }

  // ---------------------------------------------------------------------
  // Assigning an agent
  // ---------------------------------------------------------------------

  /** `asignarSoporte(agentId)`. */
  function Assign(v: View, agentId: int): (r: Step<View>)
    ensures r.state == v && r.route == None
    ensures r.requests != [] <==> v.ticket.Some? && v.classificationSaved
    ensures r.requests != [] ==> r.requests == [AssignAgent(v.ticket.value.id, agentId)]
    ensures v.ticket.Some? && !v.classificationSaved ==> r.toasts == [Toast(Warning, AssignBeforeSave)]
  {
    if v.ticket.None? then Quiet(v)
    else if !v.classificationSaved then Step(v, [Toast(Warning, AssignBeforeSave)], [], None)
    else Step(v, [Toast(Info, "Asignando técnico...")], [AssignAgent(v.ticket.value.id, agentId)], None)
  }

  /** The callbacks of `assignSoporte` for the ticket it was sent for:
      success reloads that ticket, anything else only reports. */
  function OnAssignReply(v: View, ticketId: int, reply: Reply<()>): (r: Step<View>)
    ensures r.route == None
    ensures reply.Ok? <==> r.requests == [GetTicket(ticketId)]
    ensures reply.Ok? ==> r.state == v.(loading := true)
    ensures !reply.Ok? ==> r.state == v && r.requests == []
  {
    match reply
    case Ok(_) =>
      var load := StartLoad(v, ticketId);
      Step(load.state, [Toast(Success, "Técnico asignado correctamente")], load.requests, None)
    case Rejected(msg) => Step(v, [Toast(Error, Or(msg, "No se pudo asignar"))], [], None)
    case TransportError => Step(v, [Toast(Error, "Error en el servidor al asignar")], [], None)
  }

  // ---------------------------------------------------------------------
  // Saving the classification
  // ---------------------------------------------------------------------

  /** `guardarCambios`. */
  function SaveClassification(v: View): (r: Step<View>)
    ensures r.route == None
    ensures r.requests != [] <==> v.ticket.Some? && TruthyId(v.unitId) && TruthyId(v.priorityId)
    ensures r.requests != [] ==>
      && r.requests == [UpdateTicket(v.ticket.value.id, v.unitId.value, v.priorityId.value, v.statusId)]
      && r.state == v.(savingConfig := true)
    ensures r.requests == [] ==> r.state == v
    ensures v.ticket.Some? && !TruthyId(v.unitId) ==> r.toasts == [Toast(Warning, UnitMissing)]
    ensures v.ticket.Some? && TruthyId(v.unitId) && !TruthyId(v.priorityId) ==>
      r.toasts == [Toast(Warning, PriorityMissing)]
  {
    if v.ticket.None? then Quiet(v)
    else if !TruthyId(v.unitId) then Step(v, [Toast(Warning, UnitMissing)], [], None)
    else if !TruthyId(v.priorityId) then Step(v, [Toast(Warning, PriorityMissing)], [], None)
    else
      var payload := UpdateTicket(v.ticket.value.id, v.unitId.value, v.priorityId.value, v.statusId);
      Step(v.(savingConfig := true), [], [payload], None)
  }

  /** The callbacks of `updateTicket`, followed by `finalize`. */
  function OnSaveReply(v: View, reply: Reply<()>): (r: Step<View>)
    ensures r.requests == [] && r.route == None
    ensures r.state.classificationSaved == (reply.Ok? || v.classificationSaved)
    ensures r.state == v.(savingConfig := false, classificationSaved := r.state.classificationSaved)
  {
    var done := v.(savingConfig := false);
    match reply
    case Ok(_) =>
      Step(done.(classificationSaved := true), [Toast(Success, "Clasificación guardada correctamente")], [], None)
    case Rejected(msg) => Step(done, [Toast(Warning, Or(msg, "No se pudieron guardar cambios"))], [], None)
    case TransportError => Step(done, [Toast(Error, "Error al guardar configuración")], [], None)
  }

  // ---------------------------------------------------------------------
  // Completing the review
  // ---------------------------------------------------------------------

  /** `detalle()?.soporte_asignado` is truthy. */
  predicate HasAgent(d: Option<Detail>) {
    d.Some? && TruthyId(d.value.assignedAgent)
  }

  /** `guardarRevision`: a missing agent draws a warning but does not block. */
  function CompleteReview(v: View): (r: Step<View>)
    ensures r.state == v && r.route == None
    ensures r.requests != [] <==> v.ticket.Some? && v.classificationSaved
    ensures r.requests != [] ==> r.requests == [MarkReviewed(v.ticket.value.id)]
    ensures r.requests != [] ==> (Toast(Warning, NoAgentAdvice) in r.toasts <==> !HasAgent(v.detail))
    ensures v.ticket.Some? && !v.classificationSaved ==> r.toasts == [Toast(Error, ReviewBeforeSave)]
  {
    if v.ticket.None? then Quiet(v)
    else if !v.classificationSaved then Step(v, [Toast(Error, ReviewBeforeSave)], [], None)
    else
      var advice := if HasAgent(v.detail) then [] else [Toast(Warning, NoAgentAdvice)];
      Step(v, advice + [Toast(Info, "Finalizando revisión...")], [MarkReviewed(v.ticket.value.id)], None)
  }

  /** The callbacks of `markReviewed`: only success leaves the page (after a
      short delay that is not modelled). */
  function OnReviewReply(v: View, reply: Reply<()>): (r: Step<View>)
    ensures r.state == v && r.requests == []
    ensures r.route.Some? <==> reply.Ok?
    ensures r.route.Some? ==> r.route.value == ReviewedRoute
    ensures |r.toasts| == 1 && (r.toasts[0].level == Success <==> reply.Ok?)
  {
    match reply
    case Ok(_) => Step(v, [Toast(Success, "Ticket movido a bandeja de salida")], [], Some(ReviewedRoute))
    case Rejected(msg) => Step(v, [Toast(Error, Or(msg, "Fallo al finalizar revisión"))], [], None)
    case TransportError => Step(v, [Toast(Error, "Error de servidor")], [], None)
  }

  /** A rejected review shows the server's message as an error and keeps
      the page where it is. */
  lemma RejectedReviewStays(v: View)
    ensures var r := OnReviewReply(v, Rejected("Clasificación incompleta"));
      r.toasts == [Toast(Error, "Clasificación incompleta")] && r.route == None && r.state == v
  {
  }

  // ---------------------------------------------------------------------
  // Agent avatar
  // ---------------------------------------------------------------------

  /** `getInicialSoporte`: the capitalised first letter of the assigned
      agent's name, or "?" when there is no name. */
  function AgentInitial(d: Option<Detail>): (r: string)
    ensures 1 <= |r| <= 2
    ensures !(d.Some? && Truthy(d.value.agentName)) ==> r == "?"
    ensures d.Some? && Truthy(d.value.agentName) ==> !IsLowerLetter(r[0])
    ensures d.Some? && Truthy(d.value.agentName) ==> r == UpperText(d.value.agentName.value[0])
  {
    if d.Some? && Truthy(d.value.agentName) then UpperText(d.value.agentName.value[0]) else "?"
  }

  /** For a name that starts with a letter, the initial is that letter as a
      capital. */
  lemma AgentInitialNamesFirstLetter(id: Option<int>, name: string)
    requires name != "" && (IsUpper(name[0]) || IsLowerLetter(name[0]))
    ensures var r := AgentInitial(Some(Detail(id, Some(name))));
      |r| == 1 && IsUpper(r[0]) && LowerChar(r[0]) == LowerChar(name[0])
  {
    UpperTextOfLetter(name[0]);
  }

  /** The initial does not depend on the case the name is stored in. */
  lemma AgentInitialIgnoresCase(id: Option<int>, name: string)
    ensures AgentInitial(Some(Detail(id, Some(name)))) == AgentInitial(Some(Detail(id, Some(Lower(name)))))
  {
    if name != "" {
      UpperTextOfLower(name[0]);
    }
  }

  // ---------------------------------------------------------------------
  // The page as a state machine
  // ---------------------------------------------------------------------

  /** Everything that can happen to the page: a user action (a click, or a
      choice in the unit or priority select) or a reply to a request it
      issued earlier. */
  datatype Event =
    | Opened(routeId: Option<int>)
    | UnitSelected(unit: Option<int>)
    | PrioritySelected(priority: Option<int>)
    | TicketArrived(ticketReply: Reply<Option<Loaded>>)
    | AgentsArrived(agentsReply: Reply<Option<seq<Agent>>>)
    | AssignClicked(agentId: int)
    | AssignAnswered(ticketId: int, assignReply: Reply<()>)
    | SaveClicked
    | SaveAnswered(saveReply: Reply<()>)
    | ReviewClicked
    | ReviewAnswered(reviewReply: Reply<()>)

  function Handle(v: View, e: Event): Step<View> {
    match e
    case Opened(id) => Init(v, id)
    case UnitSelected(unit) => Quiet(v.(unitId := unit))
    case PrioritySelected(priority) => Quiet(v.(priorityId := priority))
    case TicketArrived(reply) => OnTicketReply(v, reply)
    case AgentsArrived(reply) => OnAgentsReply(v, reply)
    case AssignClicked(agent) => Assign(v, agent)
    case AssignAnswered(id, reply) => OnAssignReply(v, id, reply)
    case SaveClicked => SaveClassification(v)
    case SaveAnswered(reply) => OnSaveReply(v, reply)
    case ReviewClicked => CompleteReview(v)
    case ReviewAnswered(reply) => OnReviewReply(v, reply)
  }

  /** The page together with every request it has issued so far. */
  datatype Session = Session(view: View, issued: seq<ApiRequest>)

  const Start: Session := Session(Initial, [])

  /** A reply can only arrive for a kind of request the page has issued, and
      a select offers only the empty choice and the ids of its options. */
  predicate Possible(s: Session, e: Event) {
    match e
    case UnitSelected(unit) => unit.None? || 1 <= unit.value <= 3
    case PrioritySelected(priority) => priority.None? || 1 <= priority.value <= 3
    case TicketArrived(_) => exists q :: q in s.issued && q.GetTicket?
    case AgentsArrived(_) => ListAgents in s.issued
    case AssignAnswered(id, _) => exists q :: q in s.issued && q.AssignAgent? && q.ticketId == id
    case SaveAnswered(_) => exists q :: q in s.issued && q.UpdateTicket?
    case ReviewAnswered(_) => exists q :: q in s.issued && q.MarkReviewed?
    case _ => true
  }

  function Next(s: Session, e: Event): Session {
    var step := Handle(s.view, e);
    Session(step.state, s.issued + step.requests)
  }

  /** Every event of `events` is possible when it happens. */
  predicate Feasible(s: Session, events: seq<Event>)
    decreases |events|
  {
    events == [] || (Possible(s, events[0]) && Feasible(Next(s, events[0]), events[1..]))
  }

  /** The session after handling `events` in order. */
  function Run(s: Session, events: seq<Event>): Session
    decreases |events|
  {
    if events == [] then s else Run(Next(s, events[0]), events[1..])
  }

  /** The part of `Consistent` about the view alone: the classification is
      only ever saved for a loaded ticket, and the form ids are ids of the
      unit, priority and status enumerations. */
  predicate FormConsistent(v: View) {
    && (v.classificationSaved ==> v.ticket.Some?)
    && (v.unitId.Some? ==> 1 <= v.unitId.value <= 3)
    && (v.priorityId.Some? ==> 1 <= v.priorityId.value <= 3)
    && (v.statusId.Some? ==> 1 <= v.statusId.value <= 4)
  }

  /** A list of requests holds a classification request. */
  predicate SendsSave(requests: seq<ApiRequest>) {
    exists q :: q in requests && q.UpdateTicket?
  }

  /** What every session reachable from the start satisfies: the view is
      consistent, and a classification request was only ever issued once a
      ticket was loaded. */
  predicate Consistent(s: Session) {
    FormConsistent(s.view) && (SendsSave(s.issued) ==> s.view.ticket.Some?)
  }

  /** A step keeps `Consistent` when its new view is consistent, it does not
      drop a loaded ticket, and it sends a classification request only for a
      loaded ticket. */
  lemma StepKeepsConsistent(s: Session, step: Step<View>)
    requires Consistent(s) && FormConsistent(step.state)
    requires s.view.ticket.Some? ==> step.state.ticket.Some?
    requires SendsSave(step.requests) ==> step.state.ticket.Some?
    ensures Consistent(Session(step.state, s.issued + step.requests))
  {
    if SendsSave(s.issued + step.requests) {
      var q :| q in s.issued + step.requests && q.UpdateTicket?;
      if q in s.issued {
        assert SendsSave(s.issued);
      } else {
        assert SendsSave(step.requests);
      }
    }
  }

  /** A handler that leaves the view alone and sends no classification
      request keeps `Consistent`. */
  lemma SameViewKeepsConsistent(s: Session, step: Step<View>)
    requires Consistent(s) && step.state == s.view
    requires forall q :: q in step.requests ==> !q.UpdateTicket?
    ensures Consistent(Session(step.state, s.issued + step.requests))
  {
    StepKeepsConsistent(s, step);
  }

  /** Opening the page keeps the view or only raises the loading flag. */
  lemma OpenedKeepsConsistent(s: Session, id: Option<int>)
    requires Consistent(s)
    ensures Consistent(Session(Init(s.view, id).state, s.issued + Init(s.view, id).requests))
  {
    var step := Init(s.view, id);
    assert !SendsSave(step.requests);
    StepKeepsConsistent(s, step);
  }

  /** A select offers only the ids of its options. */
  lemma SelectKeepsConsistent(s: Session, unit: Option<int>, priority: Option<int>)
    requires Consistent(s)
    requires unit.None? || 1 <= unit.value <= 3
    requires priority.None? || 1 <= priority.value <= 3
    ensures Consistent(Session(s.view.(unitId := unit), s.issued + []))
    ensures Consistent(Session(s.view.(priorityId := priority), s.issued + []))
  {
    assert s.issued + [] == s.issued;
  }

  /** A loaded ticket's ids come from the enumeration tables, and a locked
      form belongs to the ticket just loaded. */
  lemma TicketArrivedKeepsConsistent(s: Session, reply: Reply<Option<Loaded>>)
    requires Consistent(s)
    ensures Consistent(Session(OnTicketReply(s.view, reply).state, s.issued + OnTicketReply(s.view, reply).requests))
  {
    var step := OnTicketReply(s.view, reply);
    assert step.requests == [];
    StepKeepsConsistent(s, step);
  }

  lemma AgentsArrivedKeepsConsistent(s: Session, reply: Reply<Option<seq<Agent>>>)
    requires Consistent(s)
    ensures Consistent(Session(OnAgentsReply(s.view, reply).state, s.issued + OnAgentsReply(s.view, reply).requests))
  {
    var step := OnAgentsReply(s.view, reply);
    assert step.requests == [];
    StepKeepsConsistent(s, step);
  }

  lemma AssignAnsweredKeepsConsistent(s: Session, id: int, reply: Reply<()>)
    requires Consistent(s)
    ensures Consistent(Session(OnAssignReply(s.view, id, reply).state, s.issued + OnAssignReply(s.view, id, reply).requests))
  {
    var step := OnAssignReply(s.view, id, reply);
    assert !SendsSave(step.requests);
    StepKeepsConsistent(s, step);
  }

  /** A save is sent only for a loaded ticket. */
  lemma SaveClickedKeepsConsistent(s: Session)
    requires Consistent(s)
    ensures Consistent(Session(SaveClassification(s.view).state, s.issued + SaveClassification(s.view).requests))
  {
    StepKeepsConsistent(s, SaveClassification(s.view));
  }

  /** A successful save is answered only while a ticket is loaded. */
  lemma SaveAnsweredKeepsConsistent(s: Session, reply: Reply<()>)
    requires Consistent(s) && SendsSave(s.issued)
    ensures Consistent(Session(OnSaveReply(s.view, reply).state, s.issued + OnSaveReply(s.view, reply).requests))
  {
    var step := OnSaveReply(s.view, reply);
    assert step.requests == [];
    StepKeepsConsistent(s, step);
  }

  /** Every possible event keeps `Consistent`: only loading a ticket, the
      two selects and the answer to a save change what it constrains, and
      only a save sends a classification request. */
  lemma NextKeepsConsistent(s: Session, e: Event)
    requires Consistent(s) && Possible(s, e)
    ensures Consistent(Next(s, e))
  {
    var v := s.view;
    match e
    case Opened(id) => OpenedKeepsConsistent(s, id);
    case UnitSelected(unit) => SelectKeepsConsistent(s, unit, None);
    case PrioritySelected(priority) => SelectKeepsConsistent(s, None, priority);
    case TicketArrived(reply) => TicketArrivedKeepsConsistent(s, reply);
    case AgentsArrived(reply) => AgentsArrivedKeepsConsistent(s, reply);
    case AssignClicked(agent) => SameViewKeepsConsistent(s, Assign(v, agent));
    case AssignAnswered(id, reply) => AssignAnsweredKeepsConsistent(s, id, reply);
    case SaveClicked => SaveClickedKeepsConsistent(s);
    case SaveAnswered(reply) =>
      assert SendsSave(s.issued);
      SaveAnsweredKeepsConsistent(s, reply);
    case ReviewClicked => SameViewKeepsConsistent(s, CompleteReview(v));
    case ReviewAnswered(reply) => SameViewKeepsConsistent(s, OnReviewReply(v, reply));
  }

  lemma {:induction false} RunKeepsConsistent(s: Session, events: seq<Event>)
    requires Consistent(s) && Feasible(s, events)
    ensures Consistent(Run(s, events))
    decreases |events|
  {
    if events != [] {
      NextKeepsConsistent(s, events[0]);
      RunKeepsConsistent(Next(s, events[0]), events[1..]);
    }
  }

  /** Whatever happened since the page opened, a classification request
      carries ids of the server's enumerations. */
  lemma ReachableSavePayload(events: seq<Event>)
    requires Feasible(Start, events)
    ensures var r := SaveClassification(Run(Start, events).view);
      r.requests != [] ==>
        && 1 <= r.requests[0].unitId <= 3
        && 1 <= r.requests[0].priorityId <= 3
        && (r.requests[0].statusId.Some? ==> 1 <= r.requests[0].statusId.value <= 4)
  {
    RunKeepsConsistent(Start, events);
  }

  /** Whatever happened since the page opened, a raised classification flag
      belongs to a loaded ticket. */
  lemma ReachableSavedHasTicket(events: seq<Event>)
    requires Feasible(Start, events)
    ensures Run(Start, events).view.classificationSaved ==> Run(Start, events).view.ticket.Some?
  {
    RunKeepsConsistent(Start, events);
  }

  /** The classification flag is only ever raised by the server: a load
      reply carrying the ticket or a successful save. */
  lemma SavedOnlyByServer(v: View, e: Event)
    requires !v.classificationSaved && Handle(v, e).state.classificationSaved
    ensures (e.TicketArrived? && e.ticketReply.Ok? && e.ticketReply.data.Some?)
         || (e.SaveAnswered? && e.saveReply.Ok?)
  {
  }

  /** Saving a complete classification and having the server accept it is
      what unlocks assignment and review for the loaded ticket. */
  lemma SaveUnlocksAssignAndReview(v: View, agentId: int)
    requires v.ticket.Some? && TruthyId(v.unitId) && TruthyId(v.priorityId)
    ensures var saved := OnSaveReply(SaveClassification(v).state, Ok(())).state;
      && Assign(saved, agentId).requests == [AssignAgent(v.ticket.value.id, agentId)]
      && CompleteReview(saved).requests == [MarkReviewed(v.ticket.value.id)]
  {
  }

  /** A ticket that is in process (labels in any case) loads read-only with
      unit 2 and priority 3. */
  lemma InProcessTicketLoadsLocked()
    ensures var t := Ticket(7, Some("Infraestructura"), Some("ALTA"), Some("En Proceso"));
      var v := OnTicketReply(Initial, Ok(Some(Loaded(t, None)))).state;
      v.unitId == Some(2) && v.priorityId == Some(3) && v.statusId == Some(2) && v.classificationSaved
  {
    var unit := Lower("Infraestructura");
    assert unit == "infraestructura";
    var priority := Lower("ALTA");
    assert priority == "alta";
    var status := Lower("En Proceso");
    assert status == "en proceso";
  }

  /** An open ticket with neither unit nor priority loads editable, and then
      neither assignment nor review issues a request. */
  lemma OpenUnclassifiedTicketBlocksActions(agentId: int)
    ensures var t := Ticket(5, None, None, Some("abierto"));
      var v := OnTicketReply(Initial, Ok(Some(Loaded(t, None)))).state;
      && !v.classificationSaved
      && Assign(v, agentId).requests == [] && Assign(v, agentId).toasts == [Toast(Warning, AssignBeforeSave)]
      && CompleteReview(v).requests == []
      && SaveClassification(v).requests == [] && SaveClassification(v).toasts == [Toast(Warning, UnitMissing)]
  {
    var status := Lower("abierto");
    assert status == "abierto";
  }

  /** `Run` and `Feasible` unfolded by one event. */
  lemma RunFirst(s: Session, es: seq<Event>)
    requires es != []
    ensures Run(s, es) == Run(Next(s, es[0]), es[1..])
    ensures Feasible(s, es) <==> Possible(s, es[0]) && Feasible(Next(s, es[0]), es[1..])
  {
  }

  /** Running two event sequences one after the other is running their
      concatenation, and it is feasible exactly when both parts are. */
  lemma {:induction false} RunAppend(s: Session, a: seq<Event>, b: seq<Event>)
    ensures Run(s, a + b) == Run(Run(s, a), b)
    ensures Feasible(s, a + b) <==> Feasible(s, a) && Feasible(Run(s, a), b)
    decreases |a|
  {
    if a == [] {
      assert a + b == b;
    } else {
      assert (a + b)[0] == a[0];
      assert (a + b)[1..] == a[1..] + b;
      RunAppend(Next(s, a[0]), a[1..], b);
    }
  }

  const OpenTicket: Ticket := Ticket(5, None, None, Some("abierto"))

  /** Opening the page on an open ticket with no classification. */
  const OpenEvents: seq<Event> := [Opened(Some(5)), TicketArrived(Ok(Some(Loaded(OpenTicket, None))))]

  /** The user picks unit 2 and priority 3 and saves. */
  const ClassifyEvents: seq<Event> := [UnitSelected(Some(2)), PrioritySelected(Some(3)), SaveClicked]

  /** The server accepts and the user assigns agent 9. */
  const AssignEvents: seq<Event> := [SaveAnswered(Ok(())), AssignClicked(9)]

  /** The page's main flow, from opening to the assignment. */
  const ClassifyThenAssign: seq<Event> := OpenEvents + ClassifyEvents + AssignEvents

  /** The page once the open ticket has loaded: editable, status 1. */
  const OpenLoaded: Session :=
    Session(View(Some(OpenTicket), None, [], false, false, false, None, None, Some(1)), [GetTicket(5), ListAgents])

  /** The page after the user's choices and the click on save. */
  const SaveSent: Session :=
    Session(OpenLoaded.view.(unitId := Some(2), priorityId := Some(3), savingConfig := true),
            OpenLoaded.issued + [UpdateTicket(5, 2, 3, Some(1))])

  /** The page after the accepted save and the assignment click. */
  const AssignSent: Session :=
    Session(SaveSent.view.(savingConfig := false, classificationSaved := true),
            SaveSent.issued + [AssignAgent(5, 9)])

  /** A run of two events is their two steps. */
  lemma RunTwo(s: Session, e0: Event, e1: Event)
    ensures Run(s, [e0, e1]) == Next(Next(s, e0), e1)
    ensures Feasible(s, [e0, e1]) <==> Possible(s, e0) && Possible(Next(s, e0), e1)
  {
    RunFirst(s, [e0, e1]);
    RunFirst(Next(s, e0), [e1]);
    assert [e0, e1][1..] == [e1] && [e1][1..] == [];
  }

  /** The page once opened on ticket 5: loading, with both fetches sent. */
  const OpenRequested: Session := Session(Initial.(loading := true), [GetTicket(5), ListAgents])

  lemma OpenedStep()
    ensures Next(Start, Opened(Some(5))) == OpenRequested
  {
  }

  /** The open ticket arrives: it maps to status 1 and no unit or priority,
      so the form stays editable. */
  lemma OpenTicketArrivesStep()
    ensures Possible(OpenRequested, OpenEvents[1])
    ensures Next(OpenRequested, OpenEvents[1]) == OpenLoaded
  {
    assert Lower("abierto") == "abierto";
    assert GetTicket(5) in OpenRequested.issued;
    assert StatusId(OpenTicket.status) == Some(1);
  }

  lemma OpenEventsRun()
    ensures Feasible(Start, OpenEvents) && Run(Start, OpenEvents) == OpenLoaded
  {
    OpenedStep();
    OpenTicketArrivesStep();
    RunTwo(Start, OpenEvents[0], OpenEvents[1]);
  }

  lemma ClassifyEventsRun()
    ensures Feasible(OpenLoaded, ClassifyEvents) && Run(OpenLoaded, ClassifyEvents) == SaveSent
  {
    var es := ClassifyEvents;
    var s1 := Next(OpenLoaded, es[0]);
    var s2 := Next(s1, es[1]);
    RunFirst(OpenLoaded, es);
    RunFirst(s1, es[1..]);
    assert es[1..][1..] == es[2..];
    RunFirst(s2, es[2..]);
    assert es[2..][1..] == [];
  }

  lemma AssignEventsRun()
    ensures Feasible(SaveSent, AssignEvents) && Run(SaveSent, AssignEvents) == AssignSent
  {
    SaveAcceptedStep();
    assert Next(SaveAccepted, AssignEvents[1]) == AssignSent;
    RunTwo(SaveSent, AssignEvents[0], AssignEvents[1]);
  }

  /** The page once the server has accepted the classification. */
  const SaveAccepted: Session := Session(SaveSent.view.(savingConfig := false, classificationSaved := true), SaveSent.issued)

  lemma SaveAcceptedStep()
    ensures Possible(SaveSent, AssignEvents[0])
    ensures Next(SaveSent, AssignEvents[0]) == SaveAccepted
  {
    assert UpdateTicket(5, 2, 3, Some(1)) in SaveSent.issued;
    assert SaveSent.issued + [] == SaveSent.issued;
  }

  /** The page's main flow is possible: an open ticket with no
      classification arrives, the user picks unit 2 and priority 3 and
      saves, the server accepts, and assigning agent 9 is then sent for that
      ticket. */
  lemma ClassifyThenAssignRuns()
    ensures Feasible(Start, ClassifyThenAssign)
    ensures Run(Start, ClassifyThenAssign).issued ==
      [GetTicket(5), ListAgents, UpdateTicket(5, 2, 3, Some(1)), AssignAgent(5, 9)]
    ensures Run(Start, ClassifyThenAssign).view.classificationSaved
  {
    OpenEventsRun();
    ClassifyEventsRun();
    AssignEventsRun();
    RunAppend(Start, OpenEvents, ClassifyEvents);
    RunAppend(Start, OpenEvents + ClassifyEvents, AssignEvents);
  }
}

=== FILE: unreviewed_tickets.dfy ===
/** The admin list of tickets not yet reviewed: one fetch, then client-side
    filtering (search, origin, event, date range) and pagination with a
    seven-slot page-number strip. */
module UnreviewedTickets {
  import opened JsValues
  import opened Text
  import opened Seqs
  import opened Effects

  /** The ticket fields this list reads. `createdAt` is the creation time as a
      timestamp. */
  datatype Ticket = Ticket(
    id: nat,
    subject: string,
    userName: string,
    origin: Option<string>,
    event: Option<string>,
    createdAt: int)

  /** The filter inputs. A date bound that is left empty is None; `to` is
      already the end of its day. */
  datatype Filters = Filters(search: string, origin: string, event: string, from: Option<int>, to: Option<int>)

  const Everything: string := "todos"
  const DefaultFilters: Filters := Filters("", Everything, Everything, None, None)

  /** Items per page: a positive number chosen in the page-size select. */
  type PageSize = n: int | n >= 1 witness 10

  datatype View = View(
    tickets: seq<Ticket>,
    filters: Filters,
    currentPage: int,
    itemsPerPage: PageSize,
    totalTickets: nat,
    loading: bool,
    errorMsg: string)

  const Initial: View := View([], DefaultFilters, 1, 10, 0, false, "")

  // ---------------------------------------------------------------------
  // Loading
  // ---------------------------------------------------------------------

  /** `resp.data`: the list arrives under `tickets` or `tickets_sin_revisar`. */
  datatype Payload = Payload(tickets: Option<seq<Ticket>>, unreviewed: Option<seq<Ticket>>)

  /** `cargarTickets`: raise the loading flag, clear the error and fetch. */
  function StartLoad(v: View): (r: Step<View>)
    ensures r.state == v.(loading := true, errorMsg := "")
    ensures r.requests == [ListUnreviewed]
  {
    Step(v.(loading := true, errorMsg := ""), [], [ListUnreviewed], None)
  }

  /** The callbacks of the fetch, followed by `finalize`. */
  function OnLoadReply(v: View, reply: Reply<Option<Payload>>): (r: Step<View>)
    ensures r.requests == [] && r.toasts == [] && r.route == None && !r.state.loading
    ensures reply.Ok? ==>
      var p := reply.data;
      var data := if p.Some? && p.value.tickets.Some? then p.value.tickets.value
                  else if p.Some? && p.value.unreviewed.Some? then p.value.unreviewed.value
                  else [];
      r.state == v.(tickets := data, totalTickets := |data|, loading := false)
    ensures !reply.Ok? ==> r.state == v.(loading := false, errorMsg := r.state.errorMsg) && r.state.errorMsg != ""
  {
    match reply
    case Ok(p) =>
      var data := if p.None? then [] else p.value.tickets.GetOr(p.value.unreviewed.GetOr([]));
      Quiet(v.(tickets := data, totalTickets := |data|, loading := false))
    case Rejected(msg) =>
      Quiet(v.(loading := false, errorMsg := Or(msg, "No se pudieron cargar los tickets.")))
    case TransportError =>
      Quiet(v.(loading := false, errorMsg := "Error de conexión al cargar tickets."))
  }

  // ---------------------------------------------------------------------
  // Filtering
  // ---------------------------------------------------------------------

  /** The search text as it is compared: lowercased, then trimmed. */
  function SearchTerm(f: Filters): string {
    Trim(Lower(f.search))
  }

  predicate MatchesSearch(term: string, t: Ticket) {
    || term == ""
    || Includes(Lower(t.subject), term)
    || Includes(Lower(t.userName), term)
    || Includes(Decimal(t.id), term)
  }

  /** The selected option is compared as it is; only the ticket side is
      lowercased. A ticket without the field never matches a selection. */
  predicate MatchesOption(selected: string, field: Option<string>) {
    selected == Everything || (field.Some? && Lower(field.value) == selected)
  }

  predicate MatchesFrom(f: Filters, t: Ticket) {
    f.from.None? || t.createdAt >= f.from.value
  }

  predicate MatchesTo(f: Filters, t: Ticket) {
    f.to.None? || t.createdAt <= f.to.value
  }

  predicate Matches(f: Filters, t: Ticket) {
    && MatchesSearch(SearchTerm(f), t)
    && MatchesOption(f.origin, t.origin)
    && MatchesOption(f.event, t.event)
    && MatchesFrom(f, t)
    && MatchesTo(f, t)
  }

  /** `getFilteredTickets`. */
  function FilteredTickets(v: View): (r: seq<Ticket>)
    ensures IsSubseq(r, v.tickets)
    ensures forall t :: t in r <==> t in v.tickets && Matches(v.filters, t)
    ensures forall t :: multiset(r)[t] == if Matches(v.filters, t) then multiset(v.tickets)[t] else 0
  {
    var p := (t: Ticket) => Matches(v.filters, t);
    FilterIsSubseq(v.tickets, p);
    FilterCounts(v.tickets, p);
    Filter(v.tickets, p)
  }

  /** Every ticket passes the default filters. */
  lemma DefaultMatches(t: Ticket)
    ensures Matches(DefaultFilters, t)
  {
    assert SearchTerm(DefaultFilters) == "" by {
      assert Lower("") == "";
      TrimEmptyIff("");
    }
  }

  /** The default filters keep every ticket. */
  lemma DefaultFiltersKeepAll(v: View)
    requires v.filters == DefaultFilters
    ensures FilteredTickets(v) == v.tickets
  {
    var p := (t: Ticket) => Matches(v.filters, t);
    forall i | 0 <= i < |v.tickets|
      ensures p(v.tickets[i])
    {
      DefaultMatches(v.tickets[i]);
    }
    FilterKeepsAll(v.tickets, p);
  }

  /** `resetFiltros`. */
  function ResetFilters(v: View): (r: View)
    ensures r.filters == DefaultFilters && r.currentPage == 1
    ensures r.tickets == v.tickets && r.itemsPerPage == v.itemsPerPage && r.totalTickets == v.totalTickets
    ensures r.loading == v.loading && r.errorMsg == v.errorMsg
    ensures FilteredTickets(r) == v.tickets
  {
    var r := v.(filters := DefaultFilters, currentPage := 1);
    DefaultFiltersKeepAll(r);
    r
  }

  /** A search made only of spaces is no search at all. */
  lemma BlankSearchMatchesAll(f: Filters, t: Ticket)
    requires AllSpace(f.search)
    ensures MatchesSearch(SearchTerm(f), t)
  {
    LowerKeepsSpaces(f.search);
    TrimEmptyIff(Lower(f.search));
  }

  /** Searching for a ticket's printed id finds it, in any filter state that
      the ticket's other fields pass. */
  lemma SearchById(f: Filters, t: Ticket)
    requires f.search == Decimal(t.id)
    ensures MatchesSearch(SearchTerm(f), t)
  {
    var d := Decimal(t.id);
    assert IsLowerText(d) by {
      forall i | 0 <= i < |d| ensures !IsUpper(d[i]) {
        assert IsDigit(d[i]);
      }
    }
    LowerKeepsLowerText(d);
    assert !IsJsSpace(d[0]) && !IsJsSpace(d[|d| - 1]);
    TrimKeepsFramedText(d);
    assert d[..|d|] == d;
  }

  // ---------------------------------------------------------------------
  // Pagination
  // ---------------------------------------------------------------------

  /** `Math.ceil(total / size) || 1`. */
  function TotalPages(total: nat, size: PageSize): (r: int)
    ensures r >= 1
    ensures total == 0 ==> r == 1
    ensures total > 0 ==> (r - 1) * size < total <= r * size
  {
    if total == 0 then 1
    else
      var r := (total + size - 1) / size;
      CeilingBounds(total, size, r);
      r
  }

  lemma CeilingBounds(total: nat, size: PageSize, r: int)
    requires total > 0 && r == (total + size - 1) / size
    ensures r >= 1 && (r - 1) * size < total <= r * size
  {
    var m := (total + size - 1) % size;
    assert total + size - 1 == r * size + m;
    assert (r - 1) * size == r * size - size;
  }

  /** `totalPages` for the view's last computed count. */
  function PageCount(v: View): int {
    TotalPages(v.totalTickets, v.itemsPerPage)
  }

  predicate PageInRange(v: View) {
    1 <= v.currentPage <= PageCount(v)
  }

  /** The first index of page `page`. */
  function PageStart(size: PageSize, page: int): (k: int)
    ensures page >= 1 ==> k >= 0
  {
    assert page >= 1 ==> (page - 1) * size >= 0 by {
      if page >= 1 {
        NonNegativeProduct(page - 1, size);
      }
    }
    (page - 1) * size
  }

  lemma NonNegativeProduct(a: int, b: int)
    requires a >= 0 && b >= 0
    ensures a * b >= 0
  {
  }

  /** The slice of `filtered` that page `page` shows: at most `size` tickets,
      the ones from the page's first index on. */
  function Page(filtered: seq<Ticket>, size: PageSize, page: int): (r: seq<Ticket>)
    ensures |r| <= size
    ensures page >= 1 ==>
      var start := PageStart(size, page);
      && |r| == Max(0, Min(size, |filtered| - start))
      && forall i :: 0 <= i < |r| ==> r[i] == filtered[start + i]
  {
    var start := PageStart(size, page);
    Slice(filtered, start, start + size)
  }

  datatype Paginated = Paginated(view: View, page: seq<Ticket>)

  /** `getPaginatedTickets`: the current page of the filtered list; as a side
      effect the view records the filtered count. */
  function Paginate(v: View): (r: Paginated)
    ensures r.view == v.(totalTickets := |FilteredTickets(v)|)
    ensures |r.page| <= v.itemsPerPage
    ensures v.currentPage >= 1 ==>
      var f := FilteredTickets(v);
      var start := PageStart(v.itemsPerPage, v.currentPage);
      && |r.page| == Max(0, Min(v.itemsPerPage, |f| - start))
      && forall i :: 0 <= i < |r.page| ==> r.page[i] == f[start + i]
  {
    var filtered := FilteredTickets(v);
    Paginated(v.(totalTickets := |filtered|), Page(filtered, v.itemsPerPage, v.currentPage))
  }

  /** A page within range of a non-empty list is never empty. */
  lemma PageNotEmpty(f: seq<Ticket>, size: PageSize, page: int)
    requires |f| > 0 && 1 <= page <= TotalPages(|f|, size)
    ensures |Page(f, size, page)| >= 1
  {
    var n := TotalPages(|f|, size);
    MonotoneProduct(page - 1, n - 1, size);
    assert PageStart(size, page) < |f|;
  }

  lemma MonotoneProduct(a: int, b: int, c: int)
    requires 0 <= a <= b && c >= 0
    ensures a * c <= b * c
  {
  }

  /** After a load that delivers `data` and a reset of the filters, the
      first page shows the first tickets of `data`, as many as fit. */
  lemma LoadResetShowsFirstTickets(v: View, data: seq<Ticket>)
    ensures var loaded := OnLoadReply(v, Ok(Some(Payload(Some(data), None)))).state;
      Paginate(ResetFilters(loaded)).page == data[..Min(v.itemsPerPage, |data|)]
  {
    var loaded := OnLoadReply(v, Ok(Some(Payload(Some(data), None)))).state;
    var reset := ResetFilters(loaded);
    assert FilteredTickets(reset) == data;
    var page := Paginate(reset).page;
    assert PageStart(v.itemsPerPage, 1) == 0;
    assert |page| == Min(v.itemsPerPage, |data|);
  }

  /** A reset outlives the next load: whatever list arrives afterwards is
      shown whole, whatever the list was when the filters were reset. */
  lemma ResetThenLoadShowsAll(v: View, data: seq<Ticket>)
    ensures FilteredTickets(OnLoadReply(ResetFilters(v), Ok(Some(Payload(Some(data), None)))).state) == data
  {
    var loaded := OnLoadReply(ResetFilters(v), Ok(Some(Payload(Some(data), None)))).state;
    DefaultFiltersKeepAll(loaded);
  }

  // ---------------------------------------------------------------------
  // Changing a filter
  // ---------------------------------------------------------------------

  /** The `onFiltro...Change` setters as written: the new filter values are
      stored and the current page is kept. */
  function SetFilters(v: View, f: Filters): (r: View)
    ensures r.filters == f && r.currentPage == v.currentPage
    ensures r.tickets == v.tickets && r.itemsPerPage == v.itemsPerPage
    ensures r.totalTickets == v.totalTickets && r.loading == v.loading && r.errorMsg == v.errorMsg
  {
    v.(filters := f)
  }

  /** A filter setter leaves paging as it was until the list is paginated
      again: the page count still comes from the recorded total, so the
      next-page button goes where it went before. */
  lemma SetFiltersKeepsPaging(v: View, f: Filters)
    ensures PageCount(SetFilters(v, f)) == PageCount(v)
    ensures NextPage(SetFilters(v, f)).currentPage == NextPage(v).currentPage
    ensures PreviousPage(SetFilters(v, f)).currentPage == PreviousPage(v).currentPage
  {
  }

  const Early1: Ticket := Ticket(1, "a", "u", None, None, 0)
  const Early2: Ticket := Ticket(2, "b", "u", None, None, 0)
  const Late3: Ticket := Ticket(3, "c", "u", None, None, 10)

  /** Three tickets shown one per page, on page 3. */
  const OnThirdPage: View := View([Early1, Early2, Late3], DefaultFilters, 3, 1, 3, false, "")

  /** A from-date that only the last ticket passes. */
  const FromTime5: Filters := DefaultFilters.(from := Some(5))

  /** Keeping the page across a filter change can show an empty page while a
      ticket matches: on page 3 of three tickets, a from-date that keeps one
      ticket leaves page 3 empty. */
  lemma FilterChangeCanEmptyPage()
    ensures var v := SetFilters(OnThirdPage, FromTime5);
      FilteredTickets(v) == [Late3] && Paginate(v).page == []
  {
    var v := SetFilters(OnThirdPage, FromTime5);
    FromTime5KeepsLate3();
    assert PageStart(1, 3) == 2;
  }

  /** Of the three tickets, the from-date keeps only the last. */
  lemma FromTime5KeepsLate3()
    ensures FilteredTickets(SetFilters(OnThirdPage, FromTime5)) == [Late3]
  {
    var v := SetFilters(OnThirdPage, FromTime5);
    var p := (t: Ticket) => Matches(v.filters, t);
    FromTime5Matches();
    assert v.tickets == [Early1] + ([Early2] + ([Late3] + []));
    FilterCons(Early1, [Early2, Late3], p);
    FilterCons(Early2, [Late3], p);
    FilterCons(Late3, [], p);
  }

  lemma FromTime5Matches()
    ensures !Matches(FromTime5, Early1) && !Matches(FromTime5, Early2) && Matches(FromTime5, Late3)
  {
    assert SearchTerm(FromTime5) == "" by {
      assert Lower("") == "";
      TrimEmptyIff("");
    }
  }

  /** A filter change that goes back to page 1, as `resetFiltros` does. */
  function SetFiltersFromFirstPage(v: View, f: Filters): (r: View)
    ensures r.filters == f && r.currentPage == 1
    ensures r.tickets == v.tickets && r.itemsPerPage == v.itemsPerPage
    ensures r.totalTickets == v.totalTickets && r.loading == v.loading && r.errorMsg == v.errorMsg
    ensures |FilteredTickets(r)| > 0 ==> |Paginate(r).page| >= 1
  {
    var r := v.(filters := f, currentPage := 1);
    if |FilteredTickets(r)| > 0 then
      PageNotEmpty(FilteredTickets(r), r.itemsPerPage, 1);
      r
    else r
  }

  /** The pages 1 .. n laid end to end. */
  function PagesUpTo(filtered: seq<Ticket>, size: PageSize, n: nat): seq<Ticket>
    decreases n
  {
    if n == 0 then [] else PagesUpTo(filtered, size, n - 1) + Page(filtered, size, n)
  }

  lemma {:induction false} PagesUpToPrefix(filtered: seq<Ticket>, size: PageSize, n: nat)
    ensures PagesUpTo(filtered, size, n) == filtered[..Min(PageStart(size, n + 1), |filtered|)]
    decreases n
  {
    if n > 0 {
      PagesUpToPrefix(filtered, size, n - 1);
      PageIsRange(filtered, size, n);
      PrefixThenRange(filtered, Min(PageStart(size, n), |filtered|), Min(PageStart(size, n + 1), |filtered|));
    }
  }

  /** Page `n` is the range from where it starts to where page `n + 1`
      starts, both clamped to the list. */
  lemma PageIsRange(filtered: seq<Ticket>, size: PageSize, n: nat)
    requires n >= 1
    ensures Min(PageStart(size, n), |filtered|) <= Min(PageStart(size, n + 1), |filtered|)
    ensures Page(filtered, size, n) ==
      filtered[Min(PageStart(size, n), |filtered|)..Min(PageStart(size, n + 1), |filtered|)]
  {
    PageStartStep(size, n);
    SliceIsRange(filtered, PageStart(size, n), PageStart(size, n) + size);
  }

  /** Each page starts one page size after the one before it. */
  lemma PageStartStep(size: PageSize, n: int)
    ensures PageStart(size, n + 1) == PageStart(size, n) + size
  {
    assert n * size == (n - 1) * size + size;
  }

  lemma PrefixThenRange<T>(s: seq<T>, lo: int, hi: int)
    requires 0 <= lo <= hi <= |s|
    ensures s[..lo] + s[lo..hi] == s[..hi]
  {
  }

  /** The pages 1 .. totalPages show every filtered ticket exactly once, in
      order: nothing is skipped and nothing repeats between pages. */
  lemma PagesCoverFiltered(filtered: seq<Ticket>, size: PageSize)
    ensures PagesUpTo(filtered, size, TotalPages(|filtered|, size)) == filtered
  {
    var n := TotalPages(|filtered|, size);
    PagesUpToPrefix(filtered, size, n);
    assert PageStart(size, n + 1) >= |filtered|;
    assert filtered[..|filtered|] == filtered;
  }

  /** `previousPage`. */
  function PreviousPage(v: View): (r: View)
    ensures r == v.(currentPage := r.currentPage)
    ensures PageInRange(v) ==> PageInRange(r)
    ensures v.currentPage > 1 ==> r.currentPage == v.currentPage - 1
    ensures v.currentPage <= 1 ==> r == v
  {
    if v.currentPage > 1 then v.(currentPage := v.currentPage - 1) else v
  }

  /** `nextPage`. */
  function NextPage(v: View): (r: View)
    ensures r == v.(currentPage := r.currentPage)
    ensures PageInRange(v) ==> PageInRange(r)
    ensures v.currentPage < PageCount(v) ==> r.currentPage == v.currentPage + 1
    ensures v.currentPage >= PageCount(v) ==> r == v
  {
    if v.currentPage < PageCount(v) then v.(currentPage := v.currentPage + 1) else v
  }

  /** Going forward and back again returns to the same page. */
  lemma NextThenPrevious(v: View)
    requires v.currentPage >= 1 && v.currentPage < PageCount(v)
    ensures PreviousPage(NextPage(v)) == v
  {
  }

  lemma PreviousThenNext(v: View)
    requires PageInRange(v) && v.currentPage > 1
    ensures NextPage(PreviousPage(v)) == v
  {
  }

  /** `goToPage`: the ellipsis (-1) and pages out of range are ignored. */
  function GoToPage(v: View, page: int): (r: View)
    ensures r == v.(currentPage := r.currentPage)
    ensures PageInRange(v) ==> PageInRange(r)
    ensures r.currentPage == page <== page != -1 && 1 <= page <= PageCount(v)
    ensures !(1 <= page <= PageCount(v)) ==> r == v
  {
    if page != -1 && page >= 1 && page <= PageCount(v) then v.(currentPage := page) else v
  }

  /** The strip's entries are -1 or pages within range, the pages strictly
      increase, neighbouring pages are consecutive, and every -1 sits between
      two pages with at least one page hidden between them. */
  predicate WellFormedStrip(r: seq<int>, total: int) {
    && (forall i :: 0 <= i < |r| ==> r[i] == -1 || 1 <= r[i] <= total)
    && (forall i, j :: 0 <= i < j < |r| && r[i] != -1 && r[j] != -1 ==> r[i] < r[j])
    && (forall i :: 0 <= i < |r| - 1 && r[i] != -1 && r[i + 1] != -1 ==> r[i + 1] == r[i] + 1)
    && (forall i :: 0 <= i < |r| && r[i] == -1 ==>
          0 < i < |r| - 1 && r[i - 1] != -1 && r[i + 1] != -1 && r[i + 1] - r[i - 1] >= 2)
  }

  /** `getPageNumbers`: every page when there are at most seven, otherwise
      seven slots with -1 standing for a run of hidden pages. */
  function PageStrip(total: int, current: int): (r: seq<int>)
    requires total >= 1
    ensures total <= 7 ==> r == seq(total, i => i + 1)
    ensures total > 7 ==> |r| == 7 && r[0] == 1 && r[6] == total
    ensures WellFormedStrip(r, total)
  {
    if total <= 7 then
      CountingStripWellFormed(total);
      seq(total, i => i + 1)
    else if current <= 4 then
      HeadStripWellFormed(total);
      [1, 2, 3, 4, 5, -1, total]
    else if current >= total - 3 then
      TailStripWellFormed(total);
      [1, -1, total - 4, total - 3, total - 2, total - 1, total]
    else
      MiddleStripWellFormed(total, current);
      [1, -1, current - 1, current, current + 1, -1, total]
  }

  /** The strip always shows the current page when it is within range. */
  lemma StripShowsCurrent(total: int, current: int)
    requires 1 <= current <= total
    ensures current in PageStrip(total, current)
  {
    var r := PageStrip(total, current);
    if total <= 7 {
      assert r[current - 1] == current;
    } else if current <= 4 {
      assert r[current - 1] == current;
    } else if current >= total - 3 {
      assert r[current - total + 6] == current;
    } else {
      assert r[3] == current;
    }
  }

  /** The pages 1..total, in order, form a well-formed strip. */
  lemma CountingStripWellFormed(total: nat)
    ensures WellFormedStrip(seq(total, i => i + 1), total)
  {
    var r := seq(total, i => i + 1);
    forall i | 0 <= i < |r|
      ensures r[i] == i + 1
    {
    }
  }

  /** The conditions on seven slots that make them a well-formed strip:
      the ends are the first and last page, the middle three are always
      pages, and a slot next to them is either the neighbouring page or an
      ellipsis over at least one hidden page. */
  predicate SevenSlots(a: int, b: int, c: int, d: int, e: int, f: int, g: int, total: int) {
    && a == 1 && g == total && total > 7
    && (forall x :: x in [b, c, d, e, f] ==> x == -1 || 2 <= x <= total - 1)
    && (b != -1 ==> b == a + 1)
    && (b == -1 ==> c != -1 && c - a >= 2)
    && c != -1 && d != -1 && e != -1
    && (b != -1 ==> c == b + 1) && d == c + 1 && e == d + 1
    && (f != -1 ==> f == e + 1 && g == f + 1)
    && (f == -1 ==> g - e >= 2)
  }

  /** A seven-slot strip is well formed when its slots are, pair by pair. */
  lemma SevenSlotsWellFormed(a: int, b: int, c: int, d: int, e: int, f: int, g: int, total: int)
    requires SevenSlots(a, b, c, d, e, f, g, total)
    ensures WellFormedStrip([a, b, c, d, e, f, g], total)
  {
    var r := [a, b, c, d, e, f, g];
    assert r[0] == a && r[1] == b && r[2] == c && r[3] == d && r[4] == e && r[5] == f && r[6] == g;
    assert b in [b, c, d, e, f] && f in [b, c, d, e, f];
    SevenSlotsIncrease(a, b, c, d, e, f, g, total);
  }

  /** The pages among seven well-placed slots strictly increase. */
  lemma SevenSlotsIncrease(a: int, b: int, c: int, d: int, e: int, f: int, g: int, total: int)
    requires SevenSlots(a, b, c, d, e, f, g, total)
    ensures var r := [a, b, c, d, e, f, g];
      forall i, j :: 0 <= i < j < 7 && r[i] != -1 && r[j] != -1 ==> r[i] < r[j]
  {
    var r := [a, b, c, d, e, f, g];
    assert r[0] == a && r[1] == b && r[2] == c && r[3] == d && r[4] == e && r[5] == f && r[6] == g;
    assert b in [b, c, d, e, f] && f in [b, c, d, e, f];
    forall i, j | 0 <= i < j < 7 && r[i] != -1 && r[j] != -1
      ensures r[i] < r[j]
    {
    }
  }

  /** Near the first page: the first five pages, an ellipsis, the last. */
  lemma HeadStripWellFormed(total: int)
    requires total > 7
    ensures WellFormedStrip([1, 2, 3, 4, 5, -1, total], total)
  {
    SevenSlotsWellFormed(1, 2, 3, 4, 5, -1, total, total);
  }

  /** Near the last page: the first page, an ellipsis, the last five. */
  lemma TailStripWellFormed(total: int)
    requires total > 7
    ensures WellFormedStrip([1, -1, total - 4, total - 3, total - 2, total - 1, total], total)
  {
    SevenSlotsWellFormed(1, -1, total - 4, total - 3, total - 2, total - 1, total, total);
  }

  /** In between: the first page, the current page with its neighbours, the
      last page, and an ellipsis on either side. */
  lemma MiddleStripWellFormed(total: int, current: int)
    requires total > 7 && 4 < current < total - 3
    ensures WellFormedStrip([1, -1, current - 1, current, current + 1, -1, total], total)
  {
    SevenSlotsWellFormed(1, -1, current - 1, current, current + 1, -1, total, total);
  }

  /** The strip for the view's current page. */
  function PageNumbers(v: View): seq<int> {
    PageStrip(PageCount(v), v.currentPage)
  }

  /** Clicking a slot of the strip moves to that page, and the ellipsis does
      nothing. */
  lemma StripSlotsNavigate(v: View, i: int)
    requires 0 <= i < |PageNumbers(v)|
    ensures PageNumbers(v)[i] != -1 ==> GoToPage(v, PageNumbers(v)[i]).currentPage == PageNumbers(v)[i]
    ensures PageNumbers(v)[i] == -1 ==> GoToPage(v, PageNumbers(v)[i]) == v
  {
  }

  /** `onItemsPerPageChange`. */
  function ChangePageSize(v: View, size: PageSize): (r: View)
    ensures r.itemsPerPage == size && r.currentPage == 1 && PageInRange(r)
    ensures r == v.(itemsPerPage := size, currentPage := 1)
  {
    v.(itemsPerPage := size, currentPage := 1)
  }

  /** `verDetalle`: open the ticket's review page. */
  function ViewDetail(v: View, id: nat): (r: Step<View>)
    ensures r.state == v && r.requests == []
    ensures r.route.Some? && r.route.value == "/admin/ticket/" + Decimal(id) + "/sin-revisar"
  {
    Step(v, [], [], Some("/admin/ticket/" + Decimal(id) + "/sin-revisar"))
  }
}
